=== FILE: README.md ===
# Title-scoped chunking and summary parsing, modelled in Dafny

This project models the text-processing core of a pipeline that turns a scientific PDF
into presentation slides. The PDF extractor yields an ordered list of content entries.
The pipeline cuts that list into chunks, asks a language model to summarise each block,
and then parses the summary back into slide sections.

The model covers five parts:

- **The chunker**, `split_chunks_by_title` in `src/data_processing.py`, with its nested
  `get_text_len` and `flush_chunk`:
  - runs of level-1 headings merge into one title;
  - each equation is bundled with the prose around it;
  - an over-long buffer triggers a lookahead and then a flush;
  - a flush under a bibliography title ("reference" or "tài liệu tham khảo") re-splits
    the text line by line into length-bounded sub-chunks.
- **The summary parser**, `parse_summary_into_sections` in `src/slide_generator.py`:
  - `### Section` lines open sections;
  - `*` lines are bullets;
  - `(Image: …)` and `(Table: …)` tags name a section's visuals and are cut out of the
    bullet text.
- **The visual lists of `prompt_ver2`**, with the figure/table partition and
  `max_section`.
- **The bullet and equation-tag reading** at the top of `add_bullets_with_equations`.
- **The Python built-ins these lean on**: `strip`, `lower`, `in`, `join`, `split`,
  `splitlines`, `sorted(set(...))`, and the two regular-expression shapes the source uses.

## Modules

| module | file | contents |
|---|---|---|
| `Strings` | `strings.dfy` | `str.strip()` over Python's `isspace` set, `str.lower()`, and the substring test |
| `Lines` | `lines.dfy` | `"sep".join`, `str.split(d)`, `str.splitlines()`, and "the non-blank stripped lines of a list" |
| `Order` | `order.dfy` | Python's code-point order on strings, and `sorted(set(names))` |
| `Patterns` | `patterns.dfy` | the left-to-right, non-overlapping scan of `\(Open([^)]+)\)`, with `findall` and `sub(…, "")` on top of it |
| `ReferenceSplit` | `reference_split.dfy` | the greedy line packing of the bibliography branch of `flush_chunk` |
| `Chunker` | `chunker.dfy` | the main loop of `split_chunks_by_title`, as a step function over the explicit state `(i, current_title, current_chunk_texts, chunks)` |
| `Sections` | `sections.dfy` | the loop of `parse_summary_into_sections` under two readings of the tags (as written, and item by item), and a section-by-section description proved equal to it under both |
| `Prompt` | `prompt.dfy` | the figure and table lists of `prompt_ver2` |
| `Bullets` | `bullets.dfy` | bullet splitting and `(Equation: …)` extraction |
| `Scenarios` | `scenarios.dfy` | worked runs on small inputs |

### What the model says about the chunker

- The lookahead of lines 100-126 never merges anything. It is entered only when the
  buffer's stripped length already exceeds `max_chunk_len`. It merges a candidate only if
  the candidate's length plus the buffer's length is at most `max_chunk_len`. Both cannot
  hold, so the first candidate always fails.
- `Lookahead` is nevertheless modelled as written. Its contract states the stop rule and
  the merge rule, and also that it returns its inputs unchanged when the buffer is already
  over the cap.
- `Step` therefore always flushes on overflow.
- The skipped-entry quirk after a successful merge (line 124, `i = j`, then line 130,
  `i += 1`) is modelled, but it cannot fire.

## Model

| member | source | states |
|---|---|---|
| Strings.Strip | src/data_processing.py:52 | `strip()` leaves no white space at either end, never lengthens its input, and leaves an already stripped text as it is |
| Strings.StripSlice | src/data_processing.py:52 | what `strip()` keeps is a slice of the text with nothing but white space before it and after it |
| Strings.StripBlank | src/data_processing.py:43-45 | the stripped text is empty exactly when the text has no non-space character, which is the `if not full_text` test |
| Strings.Lower | src/data_processing.py:47 | `lower()` keeps the length; each ASCII capital becomes its small letter (32 code points on), every other ASCII character stays, and no ASCII capital is left |
| Strings.LowerIdempotent | src/data_processing.py:47 | lower-casing twice is lower-casing once |
| Strings.Contains | src/data_processing.py:47 | `needle in s` holds exactly when the needle occurs at some position of `s` |
| Lines.SplitLines | src/slide_generator.py:267 | `splitlines()` gives pieces without line boundaries, and gives none exactly for the empty text |
| Lines.SplitLinesJoin | src/slide_generator.py:267 | `splitlines()` of a newline-join of boundary-free lines, the last of them not empty, gives back those lines |
| Lines.JoinSplitOn | src/data_processing.py:48 | joining the pieces of `split(d)` with `d` gives back the text |
| Lines.SplitOnJoin | src/slide_generator.py:432 | splitting a `d`-join of `d`-free pieces gives back the pieces |
| Lines.NonBlankLinesEmpty | src/data_processing.py:51-54 | no line survives the strip-and-skip filter exactly when every line is blank |
| Lines.NonBlankLinesStrip | src/data_processing.py:43-54 | stripping the whole joined text before splitting it changes none of the non-blank stripped lines |
| Lines.JoinHasNonSpace | src/data_processing.py:43-45 | a newline-join has a non-space character exactly when one of its parts does |
| Order.SortedUnique | src/slide_generator.py:280 | `sorted(set(names))` is strictly ascending and holds exactly the names given |
| Order.LessTotal | src/slide_generator.py:280 | Python's string order relates any two distinct strings |
| Order.LessTransitive | src/slide_generator.py:280 | Python's string order is transitive |
| Patterns.Scan | src/slide_generator.py:292-297 | the scan cuts the text into literal characters and tags that render back to exactly the text; every tag name is non-empty and free of `)`; a literal stands where no tag starts |
| Patterns.FindAll | src/slide_generator.py:292-293 | every run `findall` captures is non-empty and free of `)`, as `[^)]+` demands |
| Patterns.RemoveAllLength | src/slide_generator.py:296-297 | `sub` removes exactly the length of the matched tags |
| Patterns.RemoveAllWithoutMatch | src/slide_generator.py:296-297 | without a match, `sub` leaves the text as it is |
| Patterns.PlainPrefix | src/slide_generator.py:292-297 | text that cannot start a tag adds no capture, and `sub` keeps it |
| Patterns.TagFirst | src/slide_generator.py:292-297 | a tag at the front is captured first and removed, and the scan goes on after its `)` |
| Patterns.NoOpenHere | src/slide_generator.py:292-297 | where no tag opens, the first character is kept and the scan moves on by one |
| ReferenceSplit.GroupsFlatten | src/data_processing.py:51-63 | the emitted sub-buffers, read in order after the pending one, are exactly the non-blank stripped lines |
| ReferenceSplit.GroupsNonBlank | src/data_processing.py:51-54 | blank lines have no effect on the packing |
| ReferenceSplit.GroupsShape | src/data_processing.py:55-63 | every sub-buffer after the first holds a line, the first one extends the pending buffer, and a lone sub-buffer is not empty |
| ReferenceSplit.GroupsBounded | src/data_processing.py:55-61 | every sub-buffer has total line length at most `max_chunk_len`, or is a single line, and holds stripped non-empty lines |
| ReferenceSplit.GroupsGreedy | src/data_processing.py:55-58 | a sub-buffer is closed only when the next line would push it past `max_chunk_len` |
| ReferenceSplit.Chunks | src/data_processing.py:56-63 | one chunk per sub-buffer: the stripped title, a newline, and the sub-buffer's lines joined by newlines |
| ReferenceSplit.ChunksCoverLines | src/data_processing.py:47-63 | the chunk bodies hold the non-blank stripped lines in order, none lost and none repeated, and there is a chunk exactly when there is such a line |
| ReferenceSplit.EmptyFirstGroup | src/data_processing.py:55-58 | an empty first sub-buffer happens only when the very first line alone exceeds `max_chunk_len`; that line then opens the second sub-buffer |
| Chunker.TextLenAppend | src/data_processing.py:35-36 | `get_text_len` of a concatenation is the sum of the two lengths |
| Chunker.TextLenZero | src/data_processing.py:35-36 | `get_text_len` is zero exactly when every fragment is blank |
| Chunker.BlankJoin | src/data_processing.py:40-45 | the joined buffer strips to empty exactly when `get_text_len` of the buffer is zero |
| Chunker.ReferenceTitleIgnoresCase | src/data_processing.py:47 | a title holding `REFERENCE` or `Reference` is a bibliography title |
| Chunker.Flush | src/data_processing.py:38-67 | a flush emits nothing exactly when the buffer carries no text, and then leaves the buffer as it was; otherwise the buffer is cleared; under any title other than a bibliography title exactly one chunk is emitted; every emitted chunk starts with the stripped title and a newline |
| Chunker.FlushDefault | src/data_processing.py:43-65 | under any other title, the one chunk is the stripped title, a newline and a non-empty stripped body whose non-blank stripped lines are exactly those of the newline-joined buffer; for a buffer of clean lines the body is the joined buffer itself |
| Chunker.FlushReference | src/data_processing.py:47-63 | under a bibliography title, the emitted chunks are the title followed by the greedy sub-buffers of the non-blank stripped lines of the joined buffer, each within the cap or a single line |
| Chunker.FlushTwice | src/data_processing.py:38-67 | a second flush right after a first emits nothing, whatever the title |
| Chunker.ReferenceHasLines | src/data_processing.py:43-48 | a non-blank stripped text has at least one non-blank line |
| Chunker.MergeTitle | src/data_processing.py:74-78 | the inner loop stops at the first entry after `i` that is not level 1, whatever the entry types, and the title is the stripped texts of the run joined by newlines |
| Chunker.Bundle | src/data_processing.py:83-91 | an equation appends its stripped text, preceded by the previous prose exactly when that prose is not the buffer's last fragment, and followed by the next prose when there is some; it adds one fragment for each of these three that applies and no other |
| Chunker.Gather | src/data_processing.py:83-96 | the fragments each kind of entry adds: prose adds its own stripped text, except that blank prose adds nothing in the main loop; images and tables add nothing; an equation adds its bundle and consumes the next entry exactly when it is prose |
| Chunker.Lookahead | src/data_processing.py:100-126 | the lookahead only extends the buffer, keeps it within the cap when it merges anything, and never passes a level-1 entry that does not follow an equation; it changes nothing when the buffer is already over the cap |
| Chunker.Step | src/data_processing.py:69-130 | a heading flushes the buffer under the old title, adopts the merged title and resumes right after the level-1 run; on overflow exactly the grown buffer is flushed under the current title and what the flush leaves is the new buffer; otherwise the fragments are appended; every new chunk carries the title in force |
| Chunker.TraceBufferBound | src/data_processing.py:69-130 | at the top of every pass, `get_text_len` of the buffer is at most `max_chunk_len` |
| Chunker.Run | src/data_processing.py:69-133 | the loop with the final flush only adds chunks, and every chunk starts with a title the loop can hold, followed by a newline |
| Chunker.SplitChunksByTitle | src/data_processing.py:19-133 | an empty list gives no chunks, and every chunk starts with the stripped merged title of some heading run, or with the empty title, followed by a newline |
| Chunker.ProseGivesChunk | src/data_processing.py:69-133 | a document holding non-blank prose that is not a level-1 entry yields at least one chunk: the prose reaches the buffer, and a buffer that carries text is always flushed |
| Sections.RemoveTextKeeps | src/slide_generator.py:285 | `replace` keeps text that cannot start an occurrence |
| Sections.HeaderMarkRemoved | src/slide_generator.py:285 | removing `###` from a header line leaves ` Section` followed by the rest with `###` removed |
| Sections.SubHeadingStartsWithSection | src/slide_generator.py:272-285 | the `sub_heading` of a header line starts with `Section`, so an open section always passes the tests of lines 273 and 301 |
| Sections.TagNamesAsWritten | src/slide_generator.py:292-294 | each run captured by the image and table tags is non-empty and free of `)` |
| Sections.TagNames | src/slide_generator.py:292-294 | each name read from the tags, item by item, is non-empty and stripped |
| Sections.Tagged | src/slide_generator.py:292-294 | the names a bullet's tags add, never empty: as written, the captured runs themselves (free of `)`); item by item, their stripped comma-separated items |
| Sections.SplitAllSingle | src/slide_generator.py:292-294 | when every captured run is non-empty, stripped and free of commas, the item-by-item reading gives back the runs themselves, so it agrees with the code as written |
| Sections.BulletText | src/slide_generator.py:296-297 | the kept text of a bullet is stripped and never longer than its content |
| Sections.BulletTextUntagged | src/slide_generator.py:296-297 | a bullet without image or table tags keeps all of its stripped text, including its equation tags |
| Sections.BulletTextImageTag | src/slide_generator.py:296-297 | an `(Image: …)` tag between plain texts is cut out, and the text on both sides is kept, joined and stripped |
| Sections.BulletTextTableTag | src/slide_generator.py:296-297 | a `(Table: …)` tag between plain texts is cut out in the same way, and the image pattern passes over it |
| Sections.Lookup | src/slide_generator.py:265 | the lookup finds an image exactly when one has that `src`, and then returns the last such image |
| Sections.PickImages | src/slide_generator.py:278-282 | the kept images come from the block, and their `src`s are exactly the names that match a block image |
| Sections.PickImagesSorted | src/slide_generator.py:278-282 | images picked in the order of sorted names are sorted by `src` |
| Sections.MkSection | src/slide_generator.py:274-283 | a section carries the block's heading and its sub-heading; its images are the block's own records, each the one `image_lookup` keeps for its `src`, with strictly ascending `src`s that are exactly the tagged names found among the block's images (its text: `Sections.SectionTextLines`) |
| Sections.SectionTextLines | src/slide_generator.py:277 | the section text, split into lines again as line 432 does, gives back exactly the non-blank bullets in order, and clean bullets unchanged |
| Sections.Close | src/slide_generator.py:273-283 | closing adds at most one section and keeps the earlier ones |
| Sections.ParseLineBody | src/slide_generator.py:289-299 | away from headers, a line adds only its bullet text and the names its tags give under the chosen reading: as written, the whole captured runs (line 294) |
| Sections.FeedAppend | src/slide_generator.py:270-299 | the loop over two runs of lines is the loop over the first, then over the second |
| Sections.FeedBody | src/slide_generator.py:289-299 | a run of lines without headers adds exactly its bullets and the names their tags give under the chosen reading, in order |
| Sections.FirstHeader | src/slide_generator.py:270-272 | the first header line: no header comes before it |
| Sections.SpecParse | src/slide_generator.py:270-311 | the section-by-section description, under either reading of the tags: at most one section per header line, each with the block's heading and a `Section…` sub-heading |
| Sections.ParseMatchesSpec | src/slide_generator.py:270-311 | under either reading of the tags, the loop gives exactly the section-by-section description: lines before the first header are dropped, each header owns the lines up to the next, and it yields a section exactly when they hold a bullet, with images tagged in those lines alone |
| Sections.ParseSummary | src/slide_generator.py:258-313 | the parser as written (each tag's captured run is looked up whole): every section has the block's heading and a sub-heading starting with `Section`, and there are no more sections than header lines |
| Sections.ParseSummaryCorrected | src/slide_generator.py:258-313 | the same parser reading each tag item by item keeps the same guarantees: the block's heading, a `Section` sub-heading, and no more sections than header lines |
| Sections.PreambleDiscarded | src/slide_generator.py:270-299 | under either reading, lines before the first header change nothing |
| Sections.IgnoredLine | src/slide_generator.py:270-299 | under either reading, a line that is neither a header nor a bullet changes nothing |
| Sections.SingleTagRuns | src/slide_generator.py:292-294 | a bullet that is one image tag captures its whole run as a single name |
| Sections.ListTagAsWritten | src/slide_generator.py:292-294 | as written, `(Image: a, b)` asks only for an image whose `src` is `a, b`, and without one the section gets no image |
| Sections.SplitNamesPair | src/slide_generator.py:292-294 | the run `a, b` lists `a` and `b` |
| Sections.ListTagCorrected | src/slide_generator.py:292-294 | read item by item, `(Image: a, b)` names `a` and `b`, and the section gets each one the block has |
| Sections.ListTagRun | src/slide_generator.py:292-294 | the tag `(Image: a, b)` captures the single run `a, b` |
| Sections.ListBulletNames | src/slide_generator.py:289-294 | on the bullet `* (Image: a, b)` the parser as written records the one name `a, b`, and the item-by-item parser records `a` and `b` |
| Sections.ListedTagLosesImages | src/slide_generator.py:292-294 | with images `a.png` and `b.png`, the bullet `(Image: a.png, b.png)` gives its section no image as written |
| Sections.ListedTagKeepsImages | src/slide_generator.py:292-294 | read item by item, the same bullet gives its section both images |
| Prompt.IsTableCases | src/slide_generator.py:123 | the table test accepts exactly the five letters of `table`, each in either case |
| Prompt.ItemStr | src/slide_generator.py:119-122 | every item starts with `(Caption: ` |
| Prompt.Items | src/slide_generator.py:116-126 | a list never has more items than there are images, and each item starts with `(Caption: ` |
| Prompt.Partition | src/slide_generator.py:116-126 | the loop builds exactly the figure list and the table list |
| Prompt.PartitionCounts | src/slide_generator.py:116-126 | each image lands in exactly one of the two lists |
| Prompt.ItemsAppend | src/slide_generator.py:118-126 | both lists keep the order of the images |
| Prompt.ItemsMembers | src/slide_generator.py:118-126 | an item is in a list exactly when an image of that side yields it |
| Prompt.ItemsComeFromImages | src/slide_generator.py:118-126 | every item of a list comes from an image of that side |
| Prompt.ImagesGiveItems | src/slide_generator.py:118-126 | every image of a side gives an item of that list |
| Prompt.ItemsEmpty | src/slide_generator.py:118-126 | a list is empty exactly when no image belongs to its side |
| Prompt.RenderList | src/slide_generator.py:128-129 | a list of items renders as `[None]` exactly when it is empty |
| Prompt.RenderListLines | src/slide_generator.py:128-129 | a non-empty list of one-line items reads back line by line |
| Prompt.FigureListNone | src/slide_generator.py:128 | the figure list shows `[None]` exactly when every image is a table |
| Prompt.TableListNone | src/slide_generator.py:129 | the table list shows `[None]` exactly when no image is a table |
| Prompt.MaxSection | src/slide_generator.py:114 | `max_section` is one more than the number of listed figures and tables |
| Lines.Pieces | src/slide_generator.py:432 | every piece of `[x.strip() for x in s.split(d) if x.strip()]` is non-empty and stripped |
| Lines.PiecesJoin | src/slide_generator.py:432 | clean items written with the separator between them (bullets one per line, or names with commas) are split back into the same items |
| Bullets.SplitBulletsStrip | src/slide_generator.py:432 | white space around the whole text changes no bullet |
| Bullets.StripGroupOne | src/slide_generator.py:427-437 | once stripped, the captured group equals the whole bracketed run, whatever `\s*` took |
| Bullets.ReadBullet | src/slide_generator.py:434-438 | a bullet has an equation exactly when an `(Equation: …)` tag matches; the path is the stripped run of the first match, and then the text is stripped and no longer than the bullet; without a match the bullet is kept as it is |
| Bullets.ReadPlainBullet | src/slide_generator.py:434-438 | a bullet without `(` is drawn as it is, with no equation |
| Bullets.ReadTaggedBullet | src/slide_generator.py:434-438 | the first tag after plain text gives the path, and every equation tag leaves the text |
| Scenarios.HeadingThenParagraph | src/data_processing.py:73-98 | a heading and one paragraph give the single chunk `Intro\nHello` |
| Scenarios.OversizedFirstReference | src/data_processing.py:55-58 | under `Reference`, a first line longer than the cap is preceded by a chunk that holds the title alone |
| Scenarios.IntroIsNoBibliography | src/data_processing.py:47 | the title `Intro` is not a bibliography title |

## Left out

- `extract_pdf`, in `src/data_processing.py`, runs an external command.
- `process_json_data`, in `src/data_processing.py`, does file I/O, model calls and document
  construction.
- The model-service wrappers and `summarize_block`, in `src/slide_generator.py`, are
  network calls with sleeps. `prompt_ver1` and the fixed template text of `prompt_ver2`
  are constant prose. Only the visual lists and `max_section` of `prompt_ver2` are
  modelled.
- `create_presentation`, `set_text_with_font` and the layout half of
  `add_bullets_with_equations`:
  - they draw slides through a presentation library;
  - they check image files on disk;
  - they compute floating-point geometry.

  Only the bullet and equation-tag reading (lines 427-438) is modelled.
- `src/utils.py` and `src/main.py` are file-system wrappers and argument parsing.
- The repository's tests are file-system and integration tests.
- Strings.Lower: covers ASCII, Latin-1 and Latin Extended Additional (the Vietnamese
  capitals with tone marks). Every other character is left as it is. Python's full
  Unicode case table is not modelled.
- Chunker.Entry: assumes every entry has a `text` field, as the source does when it
  indexes `entry["text"]`. The model does not cover the `KeyError` raised on an entry
  without one.
- Sections.Visual and Prompt.ItemStr: a missing `alt`, `caption` or `src` is the empty
  string, as the `get(…, "")` defaults give. The model does not cover the `KeyError` that
  `img["src"]` raises on line 265.
- Chunker.TraceBufferBound: states the buffer bound only for `max_chunk_len >= 0`. For a
  negative cap, the buffer may end a pass holding blank fragments.
- Chunker.Flush: follows the code, not the documented intent of always clearing the
  buffer. When the buffer joins to white space only, the early return (lines 44-45)
  leaves its blank fragments in place. `FlushTwice` and `TextLen` show that this never
  changes an output.
- Chunker.SplitChunksByTitle: `Chunker.ProseGivesChunk` proves that non-blank prose gives
  at least one chunk. It does not prove that the prose's text appears in a chunk. Under a
  bibliography title the text is re-cut line by line, so the claim would be about lines,
  not about the whole text.
- Chunker.Lookahead: its successful-merge path, and the skipped entry that follows it
  (lines 121-124), are modelled but never reached, as explained above.
- Bullets.ReadBullet: the `os.path.exists` check on the equation path belongs to the
  drawing half and is not modelled. So is the drawing itself.
- Regular expressions are modelled only for the shapes the source uses: a fixed opening,
  a run of characters other than `)`, and a `)`. The `\s*` of the equation pattern is
  folded into the captured group, and `StripGroupOne` shows that stripping erases the
  difference.

## Findings

| source | as written | input that shows it | evidently intended | confidence | as-written member | corrected member |
|---|---|---|---|---|---|---|
| src/slide_generator.py:292-294 | `findall` captures the whole run of an `(Image: …)` tag as one filename. The prompt (line 153) asks the model to list files as `(Image: figure1.png, figure2.jpg)` | a block with images `a.png` and `b.png`, and the bullet `* (Image: a.png, b.png)` | each listed filename is looked up, and the section shows both images | medium, not executed | Sections.ListedTagLosesImages, Sections.ListTagAsWritten, Sections.ListBulletNames, Sections.ParseSummary | Sections.ListedTagKeepsImages, Sections.ListTagCorrected, Sections.ParseSummaryCorrected |

`Sections.ParseSummary` follows the code: each captured run is one name, looked up whole,
including any white space inside the brackets (`(Image: a.png )` asks for `a.png `).
`Sections.ListBulletNames` shows the difference on a whole bullet line.

The corrected reading, `Sections.TagNames`, splits each captured run on commas and strips
every item. `Sections.ParseSummaryCorrected` runs the same loop with it, and keeps every
guarantee `Sections.ParseSummary` has. `Sections.SplitAllSingle` shows that the two
readings agree whenever every captured run is non-empty, stripped and free of commas.

=== FILE: bullets.dfy ===
/**
 The text half of `add_bullets_with_equations` (src/slide_generator.py, lines 427-438):
 a section's text is cut into bullets, and a bullet's first `(Equation: …)` tag names the
 equation image drawn under it, while all such tags are cut out of the bullet's text.

 The pattern `\(Equation:\s*([^\)]+)\)` matches exactly where `(Equation:` is followed by
 a non-empty run of characters other than `)` and then a `)`: the `\s*` only decides how
 much leading white space the captured group gives up, so the match itself is the
 `Patterns` match with opening `(Equation:`, and the group is that run with its leading
 white space dropped (all of it, unless the run is nothing else).
 */
module Bullets {
  import opened Options
  import opened Strings
  import opened Lines
  import opened Patterns

  const EquationOpen: string := "(Equation:"

  /** A bullet as it is drawn: its text, and the path of its equation image if it has one. */
  datatype Bullet = Bullet(text: string, equation: Option<string>)

  /** White space around the whole text changes no bullet. */
  lemma SplitBulletsStrip(text: string)
    ensures Pieces(Strip(text), '\n') == Pieces(text, '\n')
  {
    NonBlankLinesStrip(text);
  }

  /** `group(1)`: the greedy `\s*` takes the leading white space of the run, but leaves
      at least the one character `[^\)]+` needs. */
  function GroupOne(run: string): (g: string)
    requires run != ""
    decreases |run|
  {
    if |run| > 1 && IsSpace(run[0]) then GroupOne(run[1..]) else run
  }

  /** After `.strip()` the split between `\s*` and the group no longer shows. */
  lemma {:induction false} StripGroupOne(run: string)
    requires run != ""
    ensures Strip(GroupOne(run)) == Strip(run)
    decreases |run|
  {
    if |run| > 1 && IsSpace(run[0]) {
      StripGroupOne(run[1..]);
      assert run == [run[0]] + run[1..];
      StripDropsLeadingSpace(run[0], run[1..]);
    }
  }

  /** Lines 434-438 on one bullet: the first match gives the equation path, and when
      there is one every match is removed and the rest stripped. */
  function ReadBullet(bullet: string): (r: Bullet)
    ensures r.equation.None? <==> FindAll(bullet, EquationOpen) == []
    ensures r.equation.Some? ==> r.equation.value == Strip(FindAll(bullet, EquationOpen)[0])
    ensures r.equation.Some? ==> Stripped(r.text)
    ensures r.equation.None? ==> r.text == bullet
    ensures |r.text| <= |bullet|
  {
    var runs := FindAll(bullet, EquationOpen);
    if runs == [] then Bullet(bullet, None)
    else
      StripGroupOne(runs[0]);
      RemoveAllLength(bullet, EquationOpen);
      Bullet(Strip(RemoveAll(bullet, EquationOpen)), Some(Strip(GroupOne(runs[0]))))
  }

  /** A bullet without a `(` is drawn as it is, with no equation. */
  lemma ReadPlainBullet(bullet: string)
    requires '(' !in bullet
    ensures ReadBullet(bullet) == Bullet(bullet, None)
  {
    PlainPrefix(bullet, "", EquationOpen);
    assert bullet + "" == bullet;
    assert Scan("", EquationOpen) == [];
  }

  /** The first tag after plain text names the equation; that tag and every later one
      leave the text. */
  lemma ReadTaggedBullet(a: string, path: string, b: string)
    requires '(' !in a && NameOk(path)
    ensures ReadBullet(a + EquationOpen + path + ")" + b)
         == Bullet(Strip(a + RemoveAll(b, EquationOpen)), Some(Strip(path)))
  {
    var tag := EquationOpen + path + ")" + b;
    assert a + EquationOpen + path + ")" + b == a + tag;
    PlainPrefix(a, tag, EquationOpen);
    TagFirst(EquationOpen, path, b);
  }
}

=== FILE: chunker.dfy ===
/**
 `split_chunks_by_title` (src/data_processing.py, lines 19-133): the ordered content list
 produced by the PDF extractor is cut into text chunks, each prefixed by the title of the
 section it was read under.

 The loop state of the source (`i`, `current_title`, `current_chunk_texts`, `chunks`) is
 threaded explicitly through `Step`; `Run` is the `while i < len(data)` loop together with
 the final `flush_chunk()` of line 132.
 */
module Chunker {
  import opened Options
  import opened Strings
  import opened Lines
  import opened ReferenceSplit

  // ---------------------------------------------------------------------------
  // Content entries

  /** The `type` field of an entry. */
  datatype Kind = Text | Equation | Image | Table

  /** One element of the content list: its `type`, its `text` and its optional
      `text_level` (1 marks a heading). */
  datatype Entry = Entry(kind: Kind, text: string, textLevel: Option<int>)

  /** `entry.get("text_level") == 1`, whatever the entry's type. */
  predicate LevelOne(e: Entry) {
    e.textLevel == Some(1)
  }

  /** The test of line 73: a text entry at heading level 1 opens a new title. */
  predicate OpensTitle(e: Entry) {
    e.kind == Text && LevelOne(e)
  }

  /** The loop variables of the source. */
  datatype State = State(i: nat, title: string, buffer: seq<string>, chunks: seq<string>)

  // ---------------------------------------------------------------------------
  // get_text_len

  /** `get_text_len`: the summed length of the stripped fragments. */
  function TextLen(b: seq<string>): nat
    decreases |b|
  {
    if |b| == 0 then 0 else |Strip(b[0])| + TextLen(b[1..])
  }

  lemma {:induction false} TextLenAppend(a: seq<string>, b: seq<string>)
    ensures TextLen(a + b) == TextLen(a) + TextLen(b)
    decreases |a|
  {
    if |a| == 0 {
      assert a + b == b;
    } else {
      assert (a + b)[0] == a[0];
      assert (a + b)[1..] == a[1..] + b;
      TextLenAppend(a[1..], b);
    }
  }

  /** The fragments carry no text exactly when each of them is blank. */
  lemma {:induction false} TextLenZero(b: seq<string>)
    ensures TextLen(b) == 0 <==> forall k :: 0 <= k < |b| ==> !HasNonSpace(b[k])
    decreases |b|
  {
    if |b| > 0 {
      TextLenZero(b[1..]);
      StripBlank(b[0]);
      assert forall k :: 1 <= k < |b| ==> b[k] == b[1..][k - 1];
    }
  }

  /** The buffer joins to a blank text exactly when its fragments carry no text. */
  lemma BlankJoin(b: seq<string>)
    ensures Strip(Join("\n", b)) == "" <==> TextLen(b) == 0
  {
    StripBlank(Join("\n", b));
    JoinHasNonSpace("\n", b);
    TextLenZero(b);
  }

  // ---------------------------------------------------------------------------
  // flush_chunk

  /** Whether a title names a bibliography, by a substring test on its lower-cased form. */
  predicate IsReferenceTitle(title: string) {
    || Contains(Lower(title), "reference")
    || Contains(Lower(title), "t\U{E0}i li\U{1EC7}u tham kh\U{1EA3}o")
  }

  /** A title that spells the keyword in capitals, or capitalised, still counts. */
  lemma ReferenceTitleIgnoresCase(title: string, k: nat)
    requires k + 9 <= |title|
    requires title[k..k + 9] == "REFERENCE" || title[k..k + 9] == "Reference"
    ensures IsReferenceTitle(title)
  {
    var w := title[k..k + 9];
    LowerSlice(title, k, k + 9);
    assert Lower(w) == "reference" by {
      if w == "REFERENCE" {
        assert Lower("REFERENCE") == "reference";
      } else {
        assert Lower("Reference") == "reference";
      }
    }
    assert OccursAt(Lower(title), "reference", k);
  }

  lemma LowerSlice(s: string, i: nat, j: nat)
    requires i <= j <= |s|
    ensures Lower(s)[i..j] == Lower(s[i..j])
  {
  }

  /** What a flush emits and what it leaves in the buffer. */
  datatype Flushed = Flushed(emitted: seq<string>, rest: seq<string>)

  /** `flush_chunk` (lines 38-67) under `title`. A buffer that is empty or joins to blank
      text is left exactly as it is and nothing is emitted (lines 40-45); otherwise the
      chunks are emitted and the buffer is cleared. */
  function Flush(title: string, buffer: seq<string>, maxLen: int): (f: Flushed)
    ensures f.emitted == [] <==> TextLen(buffer) == 0
    ensures f.emitted == [] ==> f.rest == buffer
    ensures f.emitted != [] ==> f.rest == []
    ensures forall c :: c in f.emitted ==> Strip(title) + "\n" <= c
    ensures TextLen(buffer) > 0 && !IsReferenceTitle(title) ==> |f.emitted| == 1
  {
    if |buffer| == 0 then Flushed([], buffer)
    else
      var full := Strip(Join("\n", buffer));
      BlankJoin(buffer);
      if full == "" then Flushed([], buffer)
      else if IsReferenceTitle(title) then
        var lines := SplitOn(full, '\n');
        ReferenceHasLines(full);
        ChunksCoverLines(lines, maxLen);
        var cs := Chunks(Strip(title), lines, maxLen);
        assert forall c :: c in cs ==> Strip(title) + "\n" <= c;
        Flushed(cs, [])
      else
        Flushed([Strip(title) + "\n" + full], [])
  }

  /** A non-blank stripped text has at least one non-blank line. */
  lemma ReferenceHasLines(full: string)
    requires full != "" && Stripped(full)
    ensures NonBlankLines(SplitOn(full, '\n')) != []
  {
    StripBlank(full);
    JoinSplitOn(full, '\n');
    JoinHasNonSpace("\n", SplitOn(full, '\n'));
    NonBlankLinesEmpty(SplitOn(full, '\n'));
  }

  /** Under a bibliography title, the emitted bodies read in order are exactly the
      non-blank stripped lines of the joined buffer, none lost and none repeated, packed
      into groups within `maxLen` (or of a single line). */
  lemma FlushReference(title: string, buffer: seq<string>, maxLen: int)
    requires IsReferenceTitle(title) && TextLen(buffer) > 0
    ensures var lines := NonBlankLines(SplitOn(Join("\n", buffer), '\n'));
            var gs := Groups(lines, maxLen, [], 0);
            var f := Flush(title, buffer, maxLen);
            && Flatten(gs) == lines
            && AllBounded(gs, maxLen)
            && |f.emitted| == |gs|
            && forall k :: 0 <= k < |gs| ==> f.emitted[k] == Strip(title) + "\n" + Join("\n", gs[k])
  {
    var joined := Join("\n", buffer);
    var full := Strip(joined);
    BlankJoin(buffer);
    var lines := NonBlankLines(SplitOn(joined, '\n'));
    NonBlankLinesStrip(joined);
    GroupsNonBlank(SplitOn(full, '\n'), maxLen, [], 0);
    NonBlankLinesOfClean(lines);
    ChunksCoverLines(lines, maxLen);
    GroupsBounded(lines, maxLen, [], 0);
  }

  /** Under any other title, the one chunk emitted is the stripped title, a newline and a
      body that holds exactly the non-blank stripped lines of the joined buffer; the body
      is the joined buffer itself when its fragments are clean lines. */
  lemma FlushDefault(title: string, buffer: seq<string>, maxLen: int)
    requires !IsReferenceTitle(title) && TextLen(buffer) > 0
    ensures var f := Flush(title, buffer, maxLen);
            var head := Strip(title) + "\n";
            && |f.emitted| == 1 && head <= f.emitted[0]
            && var body := f.emitted[0][|head|..];
               && body != "" && Stripped(body)
               && NonBlankLines(SplitOn(body, '\n')) == NonBlankLines(SplitOn(Join("\n", buffer), '\n'))
               && (CleanLines(buffer) ==> body == Join("\n", buffer))
  {
    var joined := Join("\n", buffer);
    var head := Strip(title) + "\n";
    BlankJoin(buffer);
    NonBlankLinesStrip(joined);
    assert (head + Strip(joined))[|head|..] == Strip(joined);
    if CleanLines(buffer) {
      JoinOfStrippedLines(buffer);
    }
  }

  /** A second flush right after a first one emits nothing, whatever the title. */
  lemma FlushTwice(title: string, title2: string, buffer: seq<string>, maxLen: int)
    ensures Flush(title2, Flush(title, buffer, maxLen).rest, maxLen).emitted == []
  {
    var f := Flush(title, buffer, maxLen);
    if f.emitted != [] {
      assert f.rest == [];
    }
  }

  // ---------------------------------------------------------------------------
  // Headings (lines 73-81)

  function StrippedTexts(es: seq<Entry>): (r: seq<string>)
    ensures |r| == |es|
    ensures forall k :: 0 <= k < |es| ==> r[k] == Strip(es[k].text)
  {
    seq(|es|, k requires 0 <= k < |es| => Strip(es[k].text))
  }

  /** The merged title and the index after the heading run. */
  datatype TitleRun = TitleRun(title: string, next: nat)

  /** The inner loop of lines 76-78 from index `i` with the title built so far `acc`:
      it runs to the end of the run of level-1 entries and joins their stripped texts
      onto `acc` with newlines. */
  function MergeTitle(data: seq<Entry>, i: nat, acc: string): (r: TitleRun)
    requires i <= |data|
    ensures i <= r.next <= |data|
    ensures forall m :: i <= m < r.next ==> LevelOne(data[m])
    ensures r.next == |data| || !LevelOne(data[r.next])
    ensures r.title == Join("\n", [acc] + StrippedTexts(data[i..r.next]))
    decreases |data| - i
  {
    if i < |data| && LevelOne(data[i]) then
      var r := MergeTitle(data, i + 1, acc + "\n" + Strip(data[i].text));
      TitleStep(data, i, r.next, acc);
      r
    else
      assert data[i..i] == [];
      TitleRun(acc, i)
  }

  /** Joining `acc` with the texts from `i` is joining `acc` extended by the text at `i`
      with the texts after it. */
  lemma TitleStep(data: seq<Entry>, i: nat, next: nat, acc: string)
    requires i < next <= |data|
    ensures Join("\n", [acc] + StrippedTexts(data[i..next]))
         == Join("\n", [acc + "\n" + Strip(data[i].text)] + StrippedTexts(data[i + 1..next]))
  {
    var x := Strip(data[i].text);
    var rest := StrippedTexts(data[i + 1..next]);
    var es := data[i..next];
    assert es[0] == data[i] && es[1..] == data[i + 1..next];
    StrippedTextsCons(es);
    assert [acc] + ([x] + rest) == [acc, x] + rest;
    JoinMergeHead("\n", acc, x, rest);
  }

  lemma StrippedTextsCons(es: seq<Entry>)
    requires |es| > 0
    ensures StrippedTexts(es) == [Strip(es[0].text)] + StrippedTexts(es[1..])
  {
  }

  /** The title opened by the heading at `k`. */
  function MergedTitle(data: seq<Entry>, k: nat): string
    requires k < |data|
  {
    MergeTitle(data, k + 1, Strip(data[k].text)).title
  }

  /** The titles the loop can hold: the initial empty one, or one opened by a heading. */
  predicate IsTitleOf(data: seq<Entry>, t: string) {
    t == "" || exists k :: 0 <= k < |data| && OpensTitle(data[k]) && t == MergedTitle(data, k)
  }

  /** A chunk that starts with a title the loop can hold, followed by a newline. */
  predicate Titled(data: seq<Entry>, c: string) {
    "\n" <= c || exists k :: 0 <= k < |data| && OpensTitle(data[k]) && Strip(MergedTitle(data, k)) + "\n" <= c
  }

  // ---------------------------------------------------------------------------
  // Equations and prose (lines 83-96 and, in the lookahead, 109-119)

  /** The entry before an equation at `k` is prose that is not already the buffer's
      last fragment, so it is appended before the equation (lines 84-87). */
  predicate TakesPrev(data: seq<Entry>, k: nat, buffer: seq<string>)
    requires k < |data|
  {
    && k > 0 && data[k - 1].kind == Text
    && (buffer == [] || buffer[|buffer| - 1] != Strip(data[k - 1].text))
  }

  /** The entry after an equation at `k` is prose, consumed with it (lines 89-91). */
  predicate TakesNext(data: seq<Entry>, k: nat) {
    k + 1 < |data| && data[k + 1].kind == Text
  }

  /** The fragments an equation at `k` adds to `buffer`. */
  function Bundle(data: seq<Entry>, k: nat, buffer: seq<string>): (r: seq<string>)
    requires k < |data|
    ensures var ext := buffer + r;
            var e := |ext| - 1 - (if TakesNext(data, k) then 1 else 0);
            && |buffer| <= e < |ext|
            && ext[e] == Strip(data[k].text)
            && (k > 0 && data[k - 1].kind == Text ==> e > 0 && ext[e - 1] == Strip(data[k - 1].text))
            && (e > |buffer| <==> TakesPrev(data, k, buffer))
            && (TakesNext(data, k) ==> ext[e + 1] == Strip(data[k + 1].text))
    ensures |r| == (if TakesPrev(data, k, buffer) then 1 else 0) + 1 + (if TakesNext(data, k) then 1 else 0)
  {
    (if TakesPrev(data, k, buffer) then [Strip(data[k - 1].text)] else [])
    + [Strip(data[k].text)]
    + (if TakesNext(data, k) then [Strip(data[k + 1].text)] else [])
  }

  /** What one entry adds to the buffer, and the index of the last entry it consumed. */
  datatype Gathered = Gathered(frags: seq<string>, last: nat)

  /** The fragments the entry at `k` contributes. In the main loop (`lookahead` false)
      blank prose is dropped (line 95); the lookahead keeps it (line 119). Images and
      tables contribute nothing. */
  function Gather(data: seq<Entry>, k: nat, buffer: seq<string>, lookahead: bool): (g: Gathered)
    requires k < |data|
    ensures g.last == k || (g.last == k + 1 && TakesNext(data, k) && data[k].kind == Equation)
    ensures data[k].kind == Equation ==> g.frags == Bundle(data, k, buffer) && (g.last == k + 1 <==> TakesNext(data, k))
    ensures data[k].kind == Text ==> g.last == k && TextLen(g.frags) == |Strip(data[k].text)|
    ensures data[k].kind == Text ==>
              g.frags == (if Strip(data[k].text) == "" && !lookahead then [] else [Strip(data[k].text)])
    ensures data[k].kind == Text && !lookahead ==> forall f :: f in g.frags ==> f != ""
    ensures data[k].kind == Text && lookahead ==> |g.frags| == 1
    ensures data[k].kind == Image || data[k].kind == Table ==> g.frags == [] && g.last == k
  {
    match data[k].kind
    case Equation =>
      Gathered(Bundle(data, k, buffer), if TakesNext(data, k) then k + 1 else k)
    case Text =>
      var t := Strip(data[k].text);
      assert TextLen([t]) == |t|;
      if t == "" && !lookahead then Gathered([], k) else Gathered([t], k)
    case _ =>
      Gathered([], k)
  }

  // ---------------------------------------------------------------------------
  // The lookahead (lines 100-126)

  /** Prose right after an equation, which the equation consumes whatever its level. */
  predicate FollowsEquation(data: seq<Entry>, m: nat) {
    0 < m < |data| && data[m].kind == Text && data[m - 1].kind == Equation
  }

  /** The lookahead loop from `j` with `i` and `buffer` as they stand: it merges each
      candidate whose stripped length still fits within `maxLen`, and stops at the end
      of the list, at a level-1 entry, or at the first candidate that does not fit.
      Returns the new `i` and buffer. */
  function Lookahead(data: seq<Entry>, maxLen: int, j: nat, i: nat, buffer: seq<string>): (r: (nat, seq<string>))
    requires 0 < j <= |data| && i <= j
    ensures buffer <= r.1
    ensures r.0 == i || j < r.0 <= |data|
    ensures r.0 == i ==> r.1 == buffer
    ensures r.1 == buffer || TextLen(r.1) <= maxLen
    ensures forall m :: j <= m < r.0 ==> !LevelOne(data[m]) || FollowsEquation(data, m)
    ensures TextLen(buffer) > maxLen ==> r == (i, buffer)
    decreases |data| - j
  {
    if j == |data| || LevelOne(data[j]) then (i, buffer)
    else
      var g := Gather(data, j, buffer, true);
      TextLenAppend(buffer, g.frags);
      if TextLen(g.frags) + TextLen(buffer) <= maxLen then
        var r := Lookahead(data, maxLen, g.last + 1, g.last + 1, buffer + g.frags);
        assert buffer <= buffer + g.frags;
        forall m | j <= m < r.0 ensures !LevelOne(data[m]) || FollowsEquation(data, m) {
          if m == j + 1 && m == g.last {
            assert TakesNext(data, j) && data[j].kind == Equation;
          }
        }
        r
      else (i, buffer)
  }

  // ---------------------------------------------------------------------------
  // The main loop

  /** One pass of the `while` body (lines 70-130) at `st.i`. */
  function Step(data: seq<Entry>, maxLen: int, st: State): (r: State)
    requires st.i < |data|
    ensures st.i < r.i <= |data| + 1
    ensures st.chunks <= r.chunks
    ensures forall c :: c in r.chunks[|st.chunks|..] ==> Strip(st.title) + "\n" <= c
    ensures OpensTitle(data[st.i]) ==>
              && r.title == MergedTitle(data, st.i)
              && r.chunks == st.chunks + Flush(st.title, st.buffer, maxLen).emitted
              && r.buffer == Flush(st.title, st.buffer, maxLen).rest
              && TextLen(r.buffer) == 0
              && r.i == MergeTitle(data, st.i + 1, Strip(data[st.i].text)).next
    ensures !OpensTitle(data[st.i]) ==> r.title == st.title
    ensures !OpensTitle(data[st.i]) ==>
              var g := Gather(data, st.i, st.buffer, false);
              if TextLen(st.buffer + g.frags) > maxLen then
                // overflow: exactly the grown buffer is flushed, and no text is left
                && r.chunks == st.chunks + Flush(st.title, st.buffer + g.frags, maxLen).emitted
                && r.buffer == Flush(st.title, st.buffer + g.frags, maxLen).rest
                && TextLen(r.buffer) == 0
                && r.i == g.last + 1
              else
                r == State(g.last + 1, st.title, st.buffer + g.frags, st.chunks)
  {
    var e := data[st.i];
    if OpensTitle(e) then
      var run := MergeTitle(data, st.i + 1, Strip(e.text));
      var f := Flush(st.title, st.buffer, maxLen);
      assert (st.chunks + f.emitted)[|st.chunks|..] == f.emitted;
      State(run.next, run.title, f.rest, st.chunks + f.emitted)
    else
      var g := Gather(data, st.i, st.buffer, false);
      var buffer := st.buffer + g.frags;
      if TextLen(buffer) > maxLen then
        var la := Lookahead(data, maxLen, g.last + 1, g.last, buffer);
        var f := Flush(st.title, la.1, maxLen);
        assert (st.chunks + f.emitted)[|st.chunks|..] == f.emitted;
        State(la.0 + 1, st.title, f.rest, st.chunks + f.emitted)
      else
        State(g.last + 1, st.title, buffer, st.chunks)
  }

  /** The states at the top of each pass, from `st` until the loop exits. */
  function Trace(data: seq<Entry>, maxLen: int, st: State): (t: seq<State>)
    requires st.i <= |data| + 1
    ensures |t| > 0 && t[0] == st && t[|t| - 1].i >= |data|
    decreases |data| + 1 - st.i
  {
    if st.i >= |data| then [st] else [st] + Trace(data, maxLen, Step(data, maxLen, st))
  }

  /** The buffer bound holds at the top of every pass of the loop. */
  lemma {:induction false} TraceBufferBound(data: seq<Entry>, maxLen: int, st: State)
    requires st.i <= |data| + 1 && 0 <= maxLen && TextLen(st.buffer) <= maxLen
    ensures forall s :: s in Trace(data, maxLen, st) ==> TextLen(s.buffer) <= maxLen
    decreases |data| + 1 - st.i
  {
    if st.i < |data| {
      TraceBufferBound(data, maxLen, Step(data, maxLen, st));
    }
  }

  /** Loop invariant: the title is one the loop can hold and every chunk so far is titled. */
  predicate Inv(data: seq<Entry>, st: State) {
    && IsTitleOf(data, st.title)
    && forall c :: c in st.chunks ==> Titled(data, c)
  }

  /** Chunks prefixed by a title the loop can hold are titled. */
  lemma TitledUnder(data: seq<Entry>, t: string, cs: seq<string>)
    requires IsTitleOf(data, t)
    requires forall c :: c in cs ==> Strip(t) + "\n" <= c
    ensures forall c :: c in cs ==> Titled(data, c)
  {
    if t == "" {
      assert Strip(t) == "";
    }
  }

  /** The loop from `st`, followed by the final flush of line 132. */
  function Run(data: seq<Entry>, maxLen: int, st: State): (r: seq<string>)
    requires st.i <= |data| + 1 && Inv(data, st)
    ensures st.chunks <= r
    ensures forall c :: c in r ==> Titled(data, c)
    decreases |data| + 1 - st.i
  {
    if st.i >= |data| then
      var f := Flush(st.title, st.buffer, maxLen);
      TitledUnder(data, st.title, f.emitted);
      st.chunks + f.emitted
    else
      var next := Step(data, maxLen, st);
      TitledUnder(data, st.title, next.chunks[|st.chunks|..]);
      assert next.chunks == st.chunks + next.chunks[|st.chunks|..];
      assert IsTitleOf(data, next.title);
      var r := Run(data, maxLen, next);
      r
  }

  /** `split_chunks_by_title(data, max_chunk_len)`: every chunk starts with the stripped
      title it was read under and a newline; an empty list gives no chunks. */
  function SplitChunksByTitle(data: seq<Entry>, maxLen: int): (r: seq<string>)
    ensures |data| == 0 ==> r == []
    ensures forall c :: c in r ==> Titled(data, c)
  {
    Run(data, maxLen, State(0, "", [], []))
  }

  // ---------------------------------------------------------------------------
  // Prose is not lost

  /** A buffer with a non-blank fragment carries text. */
  lemma TextLenPositive(b: seq<string>, j: nat)
    requires j < |b| && Strip(b[j]) != ""
    ensures TextLen(b) > 0
  {
    TextLenZero(b);
    StripBlank(b[j]);
  }

  /** Non-blank prose at `k` that is no heading: the entry the invariant follows. */
  predicate Prose(data: seq<Entry>, k: nat) {
    k < |data| && data[k].kind == Text && !LevelOne(data[k]) && Strip(data[k].text) != ""
  }

  /** Before the loop reaches `k`, its text is still ahead; after, it is in the buffer or
      some chunk has been emitted. */
  predicate ProseKept(st: State, k: nat) {
    st.chunks != [] || TextLen(st.buffer) > 0 || st.i <= k
  }

  /** A heading pass resumes no later than the next entry that is not level 1. */
  lemma HeadingStopsBefore(data: seq<Entry>, maxLen: int, st: State, k: nat)
    requires st.i < |data| && OpensTitle(data[st.i]) && Prose(data, k) && st.i < k
    ensures Step(data, maxLen, st).i <= k
  {
    var run := MergeTitle(data, st.i + 1, Strip(data[st.i].text));
    assert !LevelOne(data[k]);
  }

  /** The pass that reaches `k` puts its text into the buffer, or flushes it. */
  lemma StepReaches(data: seq<Entry>, maxLen: int, st: State, k: nat)
    requires st.i < |data| && Prose(data, k) && st.i <= k && !OpensTitle(data[st.i])
    requires k < Step(data, maxLen, st).i
    ensures ProseKept(Step(data, maxLen, st), k)
  {
    var g := Gather(data, st.i, st.buffer, false);
    var b := st.buffer + g.frags;
    if st.i == k {
      assert g.frags == [Strip(data[k].text)];
      TextLenPositive(b, |st.buffer|);
    } else {
      assert g.last == k && data[st.i].kind == Equation && TakesNext(data, st.i);
      var e := |b| - 2;
      assert b[e + 1] == Strip(data[k].text);
      TextLenPositive(b, e + 1);
    }
    TextLenAppend(st.buffer, g.frags);
  }

  /** A pass past `k` keeps its text on record. */
  lemma StepKeepsProse(data: seq<Entry>, maxLen: int, st: State, k: nat)
    requires st.i < |data| && Prose(data, k) && ProseKept(st, k)
    ensures ProseKept(Step(data, maxLen, st), k)
  {
    var r := Step(data, maxLen, st);
    if st.chunks != [] {
      assert st.chunks <= r.chunks;
    } else if st.i <= k {
      if OpensTitle(data[st.i]) {
        if st.i < k {
          HeadingStopsBefore(data, maxLen, st, k);
        }
      } else if k < r.i {
        StepReaches(data, maxLen, st, k);
      }
    } else if !OpensTitle(data[st.i]) {
      var g := Gather(data, st.i, st.buffer, false);
      TextLenAppend(st.buffer, g.frags);
    }
  }

  /** The loop with its final flush emits a chunk once prose is on record. */
  lemma {:induction false} RunKeepsProse(data: seq<Entry>, maxLen: int, st: State, k: nat)
    requires st.i <= |data| + 1 && Inv(data, st) && Prose(data, k) && ProseKept(st, k)
    ensures Run(data, maxLen, st) != []
    decreases |data| + 1 - st.i
  {
    if st.i < |data| {
      StepKeepsProse(data, maxLen, st, k);
      var next := Step(data, maxLen, st);
      assert Run(data, maxLen, st) == Run(data, maxLen, next);
      RunKeepsProse(data, maxLen, next, k);
    }
  }

  /** Non-blank prose that is not a heading always yields at least one chunk. */
  lemma ProseGivesChunk(data: seq<Entry>, maxLen: int, k: nat)
    requires Prose(data, k)
    ensures SplitChunksByTitle(data, maxLen) != []
  {
    RunKeepsProse(data, maxLen, State(0, "", [], []), k);
  }
}

=== FILE: lines.dfy ===
/**
 Joining and splitting text on line boundaries: `"sep".join(parts)`, `s.split(d)` for a
 one-character separator, `s.splitlines()`, and the recurring idiom
 `[l.strip() for l in lines if l.strip()]`.
 */
module Lines {
  import opened Strings

  /** `sep.join(parts)`. */
  function Join(sep: string, parts: seq<string>): string
    decreases |parts|
  {
    if |parts| == 0 then ""
    else if |parts| == 1 then parts[0]
    else parts[0] + sep + Join(sep, parts[1..])
  }

  /** `s.split(d)` for a single-character separator `d`: the pieces between the
      occurrences of `d` (see `JoinSplitOn` for the way back). */
  function SplitOn(s: string, d: char): (r: seq<string>)
    ensures |r| >= 1
    ensures forall k :: 0 <= k < |r| ==> d !in r[k]
    decreases |s|
  {
    if |s| == 0 then [""]
    else
      var rest := SplitOn(s[1..], d);
      if s[0] == d then [""] + rest
      else [[s[0]] + rest[0]] + rest[1..]
  }

  /** `[l.strip() for l in lines if l.strip()]`. */
  function NonBlankLines(lines: seq<string>): (r: seq<string>)
    ensures |r| <= |lines|
    ensures forall k :: 0 <= k < |r| ==> r[k] != "" && Stripped(r[k])
    decreases |lines|
  {
    if |lines| == 0 then []
    else
      var t := Strip(lines[0]);
      (if t == "" then [] else [t]) + NonBlankLines(lines[1..])
  }

  /** `[x.strip() for x in s.split(d) if x.strip()]`: the non-blank pieces of `s`
      between the occurrences of `d`, stripped. */
  function Pieces(s: string, d: char): (r: seq<string>)
    ensures forall k :: 0 <= k < |r| ==> r[k] != "" && Stripped(r[k])
  {
    NonBlankLines(SplitOn(s, d))
  }

  /** Only blank lines yield no non-blank line. */
  lemma {:induction false} NonBlankLinesEmpty(lines: seq<string>)
    ensures NonBlankLines(lines) == [] <==> forall k :: 0 <= k < |lines| ==> !HasNonSpace(lines[k])
    decreases |lines|
  {
    if |lines| > 0 {
      NonBlankLinesEmpty(lines[1..]);
      StripBlank(lines[0]);
      assert forall k :: 1 <= k < |lines| ==> lines[k] == lines[1..][k - 1];
    }
  }

  // ---------------------------------------------------------------------------
  // Python's str.splitlines()

  /** The line boundaries `str.splitlines()` recognises (`\r\n` counts as one). */
  predicate IsLineBoundary(c: char) {
    || c == '\n' || c == '\r' || c == '\U{0B}' || c == '\U{0C}'
    || ('\U{1C}' <= c <= '\U{1E}')
    || c == '\U{85}' || c == '\U{2028}' || c == '\U{2029}'
  }

  predicate NoBoundary(s: string) {
    forall k :: 0 <= k < |s| ==> !IsLineBoundary(s[k])
  }

  /** Index of the first line boundary in `s`, or `|s|` when there is none. */
  function LineEnd(s: string): (n: nat)
    ensures n <= |s|
    ensures NoBoundary(s[..n])
    ensures n < |s| ==> IsLineBoundary(s[n])
    decreases |s|
  {
    if |s| == 0 || IsLineBoundary(s[0]) then 0
    else
      var n := 1 + LineEnd(s[1..]);
      assert forall k :: 1 <= k < n ==> s[..n][k] == s[1..][..n - 1][k - 1];
      n
  }

  /** `s.splitlines()`: the lines of `s` without their boundaries; a final boundary
      does not start an extra empty line. */
  function SplitLines(s: string): (r: seq<string>)
    ensures forall k :: 0 <= k < |r| ==> NoBoundary(r[k])
    ensures r == [] <==> s == ""
    ensures |r| <= |s|
    decreases |s|
  {
    if |s| == 0 then []
    else
      var n := LineEnd(s);
      if n == |s| then [s]
      else
        var skip := if s[n] == '\r' && n + 1 < |s| && s[n + 1] == '\n' then 2 else 1;
        [s[..n]] + SplitLines(s[n + skip..])
  }

  // ---------------------------------------------------------------------------
  // Lemmas

  /** A boundary-free run followed by a boundary (or by nothing) ends exactly there. */
  lemma {:induction false} LineEndAfter(a: string, rest: string)
    requires NoBoundary(a)
    requires rest == [] || IsLineBoundary(rest[0])
    ensures LineEnd(a + rest) == |a|
    decreases |a|
  {
    if |a| > 0 {
      assert (a + rest)[1..] == a[1..] + rest;
      LineEndAfter(a[1..], rest);
    } else {
      assert a + rest == rest;
    }
  }

  /** `"\n".join(parts).splitlines() == parts` for boundary-free lines the last of which
      is not empty (an empty last line would leave a trailing boundary, which
      `splitlines()` drops). */
  lemma {:induction false} SplitLinesJoin(parts: seq<string>)
    requires parts != [] && parts[|parts| - 1] != ""
    requires forall k :: 0 <= k < |parts| ==> NoBoundary(parts[k])
    ensures SplitLines(Join("\n", parts)) == parts
    decreases |parts|
  {
    if |parts| == 1 {
      LineEndAfter(parts[0], "");
      assert parts[0] + "" == parts[0];
    } else {
      var head := parts[0];
      var tail := Join("\n", parts[1..]);
      var s := head + "\n" + tail;
      assert s == head + ("\n" + tail);
      LineEndAfter(head, "\n" + tail);
      assert s[..|head|] == head;
      assert s[|head| + 1..] == tail;
      assert forall k :: 0 <= k < |parts[1..]| ==> parts[1..][k] == parts[k + 1];
      SplitLinesJoin(parts[1..]);
    }
  }


  /** Joining with a separator made of spaces adds no visible text. */
  lemma {:induction false} JoinHasNonSpace(sep: string, parts: seq<string>)
    requires AllSpace(sep)
    ensures HasNonSpace(Join(sep, parts)) <==> exists k :: 0 <= k < |parts| && HasNonSpace(parts[k])
    decreases |parts|
  {
    if |parts| <= 1 {
    } else {
      var tail := Join(sep, parts[1..]);
      JoinHasNonSpace(sep, parts[1..]);
      var whole := parts[0] + sep + tail;
      if HasNonSpace(whole) {
        var k :| 0 <= k < |whole| && !IsSpace(whole[k]);
        if k < |parts[0]| {
          assert !IsSpace(parts[0][k]);
        } else if k >= |parts[0]| + |sep| {
          assert whole[k] == tail[k - |parts[0]| - |sep|];
          var m :| 0 <= m < |parts[1..]| && HasNonSpace(parts[1..][m]);
          assert parts[m + 1] == parts[1..][m];
        }
      }
      if exists k :: 0 <= k < |parts| && HasNonSpace(parts[k]) {
        var k :| 0 <= k < |parts| && HasNonSpace(parts[k]);
        if k == 0 {
          var m :| 0 <= m < |parts[0]| && !IsSpace(parts[0][m]);
          assert whole[m] == parts[0][m];
        } else {
          assert parts[1..][k - 1] == parts[k];
          var m :| 0 <= m < |tail| && !IsSpace(tail[m]);
          assert whole[|parts[0]| + |sep| + m] == tail[m];
        }
      }
    }
  }

  lemma JoinFirst(sep: string, parts: seq<string>)
    requires |parts| > 0 && |parts[0]| > 0
    ensures |Join(sep, parts)| > 0 && Join(sep, parts)[0] == parts[0][0]
  {
  }

  lemma {:induction false} JoinLast(sep: string, parts: seq<string>)
    requires |parts| > 0 && |parts[|parts| - 1]| > 0
    ensures |Join(sep, parts)| > 0
    ensures Join(sep, parts)[|Join(sep, parts)| - 1] == parts[|parts| - 1][|parts[|parts| - 1]| - 1]
    decreases |parts|
  {
    if |parts| > 1 {
      JoinLast(sep, parts[1..]);
    }
  }

  /** Gluing the first two parts with the separator leaves the joined text unchanged:
      building `a + sep + x` step by step is a join. */
  lemma JoinMergeHead(sep: string, a: string, x: string, rest: seq<string>)
    ensures Join(sep, [a, x] + rest) == Join(sep, [a + sep + x] + rest)
  {
    var l := [a, x] + rest;
    assert l[1..] == [x] + rest;
    if |rest| > 0 {
      assert ([x] + rest)[1..] == rest;
      assert ([a + sep + x] + rest)[1..] == rest;
    }
  }

  /** Lines that are non-empty and stripped join (with a newline) into a stripped text. */
  lemma JoinOfStrippedLines(parts: seq<string>)
    requires forall k :: 0 <= k < |parts| ==> parts[k] != "" && Stripped(parts[k])
    ensures Strip(Join("\n", parts)) == Join("\n", parts)
  {
    if |parts| > 0 {
      JoinFirst("\n", parts);
      JoinLast("\n", parts);
    }
  }

  /** Joining the pieces of `s.split(d)` back with `d` gives `s`. */
  lemma {:induction false} JoinSplitOn(s: string, d: char)
    ensures Join([d], SplitOn(s, d)) == s
    decreases |s|
  {
    if |s| > 0 {
      var rest := SplitOn(s[1..], d);
      JoinSplitOn(s[1..], d);
      if s[0] == d {
        assert Join([d], [""] + rest) == [d] + Join([d], rest);
      } else {
        var r := [[s[0]] + rest[0]] + rest[1..];
        assert r[1..] == rest[1..];
        if |rest| > 1 {
          assert Join([d], rest) == rest[0] + [d] + Join([d], rest[1..]);
        }
      }
    }
  }

  lemma {:induction false} SplitOnFree(p: string, d: char)
    requires d !in p
    ensures SplitOn(p, d) == [p]
    decreases |p|
  {
    if |p| > 0 {
      SplitOnFree(p[1..], d);
      assert [p[0]] + p[1..] == p;
    }
  }

  lemma {:induction false} SplitOnPiece(p: string, d: char, rest: string)
    requires d !in p
    ensures SplitOn(p + [d] + rest, d) == [p] + SplitOn(rest, d)
    decreases |p|
  {
    var s := p + [d] + rest;
    if |p| == 0 {
      assert s[1..] == rest;
    } else {
      assert s[1..] == p[1..] + [d] + rest;
      SplitOnPiece(p[1..], d, rest);
      assert [p[0]] + p[1..] == p;
    }
  }

  /** `s.split(d)` undoes `d.join(parts)` when no part contains `d`. */
  lemma {:induction false} SplitOnJoin(parts: seq<string>, d: char)
    requires |parts| >= 1
    requires forall k :: 0 <= k < |parts| ==> d !in parts[k]
    ensures SplitOn(Join([d], parts), d) == parts
    decreases |parts|
  {
    if |parts| == 1 {
      SplitOnFree(parts[0], d);
    } else {
      SplitOnJoin(parts[1..], d);
      SplitOnPiece(parts[0], d, Join([d], parts[1..]));
    }
  }

  /** The first line contributes its stripped text when that is not empty. */
  lemma NonBlankLinesHead(x: string, rest: seq<string>)
    ensures NonBlankLines([x] + rest) == (if Strip(x) == "" then [] else [Strip(x)]) + NonBlankLines(rest)
  {
    assert ([x] + rest)[0] == x;
    assert ([x] + rest)[1..] == rest;
  }

  lemma {:induction false} NonBlankLinesAppend(a: seq<string>, b: seq<string>)
    ensures NonBlankLines(a + b) == NonBlankLines(a) + NonBlankLines(b)
    decreases |a|
  {
    if |a| == 0 {
      assert a + b == b;
    } else {
      var tail := a[1..];
      assert a == [a[0]] + tail;
      assert a + b == [a[0]] + (tail + b);
      NonBlankLinesHead(a[0], tail);
      NonBlankLinesHead(a[0], tail + b);
      NonBlankLinesAppend(tail, b);
    }
  }

  lemma {:induction false} SplitOnSnocSep(s: string, d: char)
    ensures SplitOn(s + [d], d) == SplitOn(s, d) + [""]
    decreases |s|
  {
    if |s| == 0 {
      assert SplitOn([d], d) == [""] + SplitOn([], d);
    } else {
      assert (s + [d])[1..] == s[1..] + [d];
      SplitOnSnocSep(s[1..], d);
      var r1 := SplitOn(s[1..], d);
      var rest' := SplitOn(s[1..] + [d], d);
      if s[0] != d {
        assert rest'[0] == r1[0];
        assert rest'[1..] == r1[1..] + [""];
      }
    }
  }

  /** One step of `SplitOn`: the pieces of `[x] + t` from the pieces `rest` of `t`. */
  function SplitStep(x: char, rest: seq<string>, d: char): seq<string>
    requires |rest| >= 1
  {
    if x == d then [""] + rest else [[x] + rest[0]] + rest[1..]
  }

  lemma SplitOnStep(s: string, d: char)
    requires |s| > 0
    ensures SplitOn(s, d) == SplitStep(s[0], SplitOn(s[1..], d), d)
  {
  }

  /** Appending `c` to the last piece commutes with a step. */
  lemma SplitStepSnoc(x: char, r1: seq<string>, c: char, d: char)
    requires |r1| >= 1
    ensures var r := SplitStep(x, r1, d);
            var n := |r1|;
            SplitStep(x, r1[..n - 1] + [r1[n - 1] + [c]], d) == r[..|r| - 1] + [r[|r| - 1] + [c]]
  {
    var n := |r1|;
    var rest' := r1[..n - 1] + [r1[n - 1] + [c]];
    var r := SplitStep(x, r1, d);
    if x == d {
      assert r[..|r| - 1] == [""] + r1[..n - 1];
    } else if n == 1 {
      assert r[|r| - 1] + [c] == [x] + (r1[0] + [c]);
    } else {
      assert rest'[0] == r1[0];
      assert rest'[1..] == r1[1..n - 1] + [r1[n - 1] + [c]];
      assert r[..|r| - 1] == [[x] + r1[0]] + r1[1..n - 1];
    }
  }

  lemma {:induction false} SplitOnSnocOther(s: string, c: char, d: char)
    requires c != d
    ensures var r := SplitOn(s, d);
            SplitOn(s + [c], d) == r[..|r| - 1] + [r[|r| - 1] + [c]]
    decreases |s|
  {
    if |s| == 0 {
      assert s + [c] == [c] && [c][1..] == [];
      assert SplitOn([], d) == [""];
      assert SplitOn([c], d) == [[c] + ""] + [""][1..];
      assert [c] + "" == [c];
    } else {
      assert (s + [c])[0] == s[0] && (s + [c])[1..] == s[1..] + [c];
      SplitOnSnocOther(s[1..], c, d);
      SplitOnStep(s, d);
      SplitOnStep(s + [c], d);
      SplitStepSnoc(s[0], SplitOn(s[1..], d), c, d);
    }
  }

  /** Lines that are already stripped and non-empty are all kept, unchanged. */
  lemma {:induction false} NonBlankLinesOfClean(lines: seq<string>)
    requires forall k :: 0 <= k < |lines| ==> lines[k] != "" && Stripped(lines[k])
    ensures NonBlankLines(lines) == lines
    decreases |lines|
  {
    if |lines| > 0 {
      NonBlankLinesOfClean(lines[1..]);
    }
  }

  lemma NonBlankLinesSingle(x: string)
    ensures NonBlankLines([x]) == if Strip(x) == "" then [] else [Strip(x)]
  {
    assert [x][1..] == [];
  }

  /** Spaces at either end of a text change none of its non-blank stripped lines. */
  lemma {:induction false} NonBlankLinesConsSpace(c: char, s: string)
    requires IsSpace(c)
    ensures NonBlankLines(SplitOn([c] + s, '\n')) == NonBlankLines(SplitOn(s, '\n'))
  {
    var rest := SplitOn(s, '\n');
    assert ([c] + s)[1..] == s;
    var r := SplitOn([c] + s, '\n');
    if c == '\n' {
      assert r == [""] + rest;
      assert r[1..] == rest;
    } else {
      StripDropsLeadingSpace(c, rest[0]);
      assert r == [[c] + rest[0]] + rest[1..];
      assert r[1..] == rest[1..];
      assert Strip(r[0]) == Strip(rest[0]);
    }
  }

  /** A trailing empty line adds no non-blank line. */
  lemma NonBlankLinesDropEmpty(r: seq<string>)
    ensures NonBlankLines(r + [""]) == NonBlankLines(r)
  {
    NonBlankLinesAppend(r, [""]);
    NonBlankLinesSingle("");
  }

  /** A space at the end of the last line does not change the non-blank lines. */
  lemma NonBlankLinesLastSpace(p: seq<string>, last: string, c: char)
    requires IsSpace(c)
    ensures NonBlankLines(p + [last + [c]]) == NonBlankLines(p + [last])
  {
    StripDropsTrailingSpace(last, c);
    NonBlankLinesAppend(p, [last + [c]]);
    NonBlankLinesAppend(p, [last]);
    NonBlankLinesSingle(last);
    NonBlankLinesSingle(last + [c]);
  }

  lemma {:induction false} NonBlankLinesSnocSpace(s: string, c: char)
    requires IsSpace(c)
    ensures NonBlankLines(SplitOn(s + [c], '\n')) == NonBlankLines(SplitOn(s, '\n'))
  {
    var r := SplitOn(s, '\n');
    if c == '\n' {
      SplitOnSnocSep(s, '\n');
      NonBlankLinesDropEmpty(r);
    } else {
      NonBlankLinesSnocOther(s, c);
    }
  }

  lemma NonBlankLinesSnocOther(s: string, c: char)
    requires IsSpace(c) && c != '\n'
    ensures NonBlankLines(SplitOn(s + [c], '\n')) == NonBlankLines(SplitOn(s, '\n'))
  {
    var r := SplitOn(s, '\n');
    SplitOnSnocOther(s, c, '\n');
    NonBlankLinesLastSpace(r[..|r| - 1], r[|r| - 1], c);
    assert r[..|r| - 1] + [r[|r| - 1]] == r;
  }

  lemma {:induction false} NonBlankLinesTrimStart(s: string)
    ensures NonBlankLines(SplitOn(TrimStart(s), '\n')) == NonBlankLines(SplitOn(s, '\n'))
    decreases |s|
  {
    if |s| > 0 && IsSpace(s[0]) {
      NonBlankLinesTrimStart(s[1..]);
      NonBlankLinesConsSpace(s[0], s[1..]);
      assert [s[0]] + s[1..] == s;
    }
  }

  lemma {:induction false} NonBlankLinesTrimEnd(s: string)
    ensures NonBlankLines(SplitOn(TrimEnd(s), '\n')) == NonBlankLines(SplitOn(s, '\n'))
    decreases |s|
  {
    if |s| > 0 && IsSpace(s[|s| - 1]) {
      var p := s[..|s| - 1];
      var c := s[|s| - 1];
      assert p + [c] == s;
      assert TrimEnd(s) == TrimEnd(p);
      NonBlankLinesTrimEnd(p);
      NonBlankLinesSnocSpace(p, c);
    }
  }

  /** Stripping a whole text first does not change its non-blank stripped lines. */
  lemma NonBlankLinesStrip(s: string)
    ensures NonBlankLines(SplitOn(Strip(s), '\n')) == NonBlankLines(SplitOn(s, '\n'))
  {
    NonBlankLinesTrimStart(s);
    NonBlankLinesTrimEnd(TrimStart(s));
  }

  /** Clean items written with `d` between them are split back into the same items. */
  lemma PiecesJoin(items: seq<string>, d: char)
    requires forall k :: 0 <= k < |items| ==> items[k] != "" && Stripped(items[k]) && d !in items[k]
    ensures Pieces(Join([d], items), d) == items
  {
    if |items| == 0 {
      assert SplitOn("", d) == [""];
      NonBlankLinesSingle("");
    } else {
      SplitOnJoin(items, d);
      NonBlankLinesOfClean(items);
    }
  }
}

=== FILE: options.dfy ===
/** An optional value, for the places where the source uses `None` or an empty match. */
module Options {

  datatype Option<T> = None | Some(value: T)
}

=== FILE: order.dfy ===
/**
 Python's ordering of strings (code point by code point, a proper prefix first) and
 `sorted(set(names))`: the distinct names in ascending order.
 */
module Order {

  /** `a < b` on Python strings. */
  predicate Less(a: string, b: string)
    decreases |a|
  {
    if |a| == 0 then |b| > 0
    else if |b| == 0 then false
    else if a[0] != b[0] then a[0] < b[0]
    else Less(a[1..], b[1..])
  }

  lemma {:induction false} LessIrreflexive(a: string)
    ensures !Less(a, a)
    decreases |a|
  {
    if |a| > 0 {
      LessIrreflexive(a[1..]);
    }
  }

  lemma {:induction false} LessTransitive(a: string, b: string, c: string)
    requires Less(a, b) && Less(b, c)
    ensures Less(a, c)
    decreases |a|
  {
    if |a| > 0 && a[0] == b[0] && b[0] == c[0] {
      LessTransitive(a[1..], b[1..], c[1..]);
    }
  }

  lemma {:induction false} LessTotal(a: string, b: string)
    requires a != b
    ensures Less(a, b) || Less(b, a)
    decreases |a|
  {
    if |a| > 0 && |b| > 0 && a[0] == b[0] {
      assert a == [a[0]] + a[1..] && b == [b[0]] + b[1..];
      LessTotal(a[1..], b[1..]);
    }
  }

  lemma LessAsymmetric(a: string, b: string)
    requires Less(a, b)
    ensures !Less(b, a)
  {
    if Less(b, a) {
      LessTransitive(a, b, a);
      LessIrreflexive(a);
    }
  }

  /** Strictly ascending, so also free of duplicates. */
  predicate StrictlySorted(xs: seq<string>) {
    forall i, j :: 0 <= i < j < |xs| ==> Less(xs[i], xs[j])
  }

  /** Adds `x` to an ascending duplicate-free list, keeping it so. */
  function Insert(x: string, xs: seq<string>): (r: seq<string>)
    requires StrictlySorted(xs)
    ensures StrictlySorted(r)
    ensures forall y :: y in r <==> y == x || y in xs
    decreases |xs|
  {
    if |xs| == 0 then [x]
    else if x == xs[0] then xs
    else if Less(x, xs[0]) then
      assert forall j :: 0 <= j < |xs| ==> Less(x, xs[j]) by {
        forall j | 0 <= j < |xs| ensures Less(x, xs[j]) {
          if j > 0 {
            LessTransitive(x, xs[0], xs[j]);
          }
        }
      }
      [x] + xs
    else
      LessTotal(x, xs[0]);
      var rest := Insert(x, xs[1..]);
      assert forall y :: y in xs[1..] ==> Less(xs[0], y);
      var r := [xs[0]] + rest;
      assert forall j :: 0 < j < |r| ==> Less(r[0], r[j]) by {
        forall j | 0 < j < |r| ensures Less(r[0], r[j]) {
          assert r[j] in rest;
        }
      }
      r
  }

  /** `sorted(set(names))`. */
  function SortedUnique(names: seq<string>): (r: seq<string>)
    ensures StrictlySorted(r)
    ensures forall y :: y in r <==> y in names
    decreases |names|
  {
    if |names| == 0 then []
    else Insert(names[0], SortedUnique(names[1..]))
  }
}

=== FILE: patterns.dfy ===
/**
 The regular expressions the summary parser and the bullet renderer use all have the
 shape `OPEN([^)]+)\)`: a literal opening (`(Image: `, `(Table: `, `(Equation:`), a
 non-empty run of characters other than `)`, and a closing `)`. Python's `re` scans
 such a pattern left to right: where it matches it consumes the whole tag, elsewhere it
 moves on by one character. `Scan` records that scan as a sequence of pieces;
 `re.findall` keeps the captured names and `re.sub(..., "", s)` keeps the other
 characters.
 */
module Patterns {
  import opened Options
  import opened Strings

  datatype Piece = Lit(c: char) | Tag(name: string)

  /** Index of the first `)` in `s`, or `|s|` when there is none. */
  function CloseParen(s: string): (n: nat)
    ensures n <= |s|
    ensures ')' !in s[..n]
    ensures n < |s| ==> s[n] == ')'
    decreases |s|
  {
    if |s| == 0 || s[0] == ')' then 0
    else
      var n := 1 + CloseParen(s[1..]);
      assert s[..n] == [s[0]] + s[1..][..n - 1];
      n
  }

  /** Length of the captured name when `open([^)]+)\)` matches at the start of `s`. */
  function TagAt(s: string, open: string): (r: Option<nat>)
    ensures r.Some? ==> open <= s && 0 < r.value && |open| + r.value < |s|
    ensures r.Some? ==> s[|open| + r.value] == ')' && ')' !in s[|open|..|open| + r.value]
  {
    if open <= s then
      var n := CloseParen(s[|open|..]);
      if 0 < n && |open| + n < |s| then Some(n) else None
    else None
  }

  function PieceText(p: Piece, open: string): string {
    match p
    case Lit(c) => [c]
    case Tag(name) => open + name + ")"
  }

  /** Concatenated text of a sequence of pieces. */
  function Render(ps: seq<Piece>, open: string): string
    decreases |ps|
  {
    if |ps| == 0 then "" else PieceText(ps[0], open) + Render(ps[1..], open)
  }

  predicate NameOk(name: string) {
    name != "" && ')' !in name
  }

  /** Every tag piece carries a well-formed name. */
  predicate TagsOk(ps: seq<Piece>) {
    forall k :: 0 <= k < |ps| && ps[k].Tag? ==> NameOk(ps[k].name)
  }

  lemma TagsOkCons(p: Piece, rest: seq<Piece>)
    requires (p.Tag? ==> NameOk(p.name)) && TagsOk(rest)
    ensures TagsOk([p] + rest)
  {
    assert forall k :: 1 <= k < |[p] + rest| ==> ([p] + rest)[k] == rest[k - 1];
  }

  lemma RenderCons(p: Piece, rest: seq<Piece>, open: string)
    ensures Render([p] + rest, open) == PieceText(p, open) + Render(rest, open)
  {
    assert ([p] + rest)[1..] == rest;
  }

  /** A match splits the text into the opening, the name, the `)` and the rest. */
  lemma TagParts(s: string, open: string, n: nat)
    requires TagAt(s, open) == Some(n)
    ensures s == open + s[|open|..|open| + n] + ")" + s[|open| + n + 1..]
  {
    assert s[..|open|] == open;
    assert s == s[..|open|] + s[|open|..|open| + n] + [s[|open| + n]] + s[|open| + n + 1..];
  }

  /** The left-to-right scan: pieces that render back to `s`, every tag a well-formed
      match, and a literal piece only where no tag starts. */
  function Scan(s: string, open: string): (r: seq<Piece>)
    ensures Render(r, open) == s
    ensures TagsOk(r)
    ensures |r| > 0 && r[0].Lit? ==> TagAt(s, open).None?
    decreases |s|
  {
    if |s| == 0 then []
    else
      match TagAt(s, open)
      case Some(n) =>
        var name := s[|open|..|open| + n];
        var rest := Scan(s[|open| + n + 1..], open);
        TagParts(s, open, n);
        RenderCons(Tag(name), rest, open);
        TagsOkCons(Tag(name), rest);
        [Tag(name)] + rest
      case None =>
        var rest := Scan(s[1..], open);
        RenderCons(Lit(s[0]), rest, open);
        TagsOkCons(Lit(s[0]), rest);
        assert [s[0]] + s[1..] == s;
        [Lit(s[0])] + rest
  }

  lemma ScanTagStep(s: string, open: string, n: nat)
    requires TagAt(s, open) == Some(n)
    ensures Scan(s, open) == [Tag(s[|open|..|open| + n])] + Scan(s[|open| + n + 1..], open)
  {
  }

  lemma ScanLitStep(s: string, open: string)
    requires |s| > 0 && TagAt(s, open).None?
    ensures Scan(s, open) == [Lit(s[0])] + Scan(s[1..], open)
  {
  }

  lemma DropCons<T>(p: T, q: seq<T>, k: nat)
    requires 1 <= k <= |q| + 1
    ensures ([p] + q)[k..] == q[k - 1..]
  {
  }

  /** Every suffix of a scan is the scan of the text it renders. */
  lemma {:induction false} ScanSuffix(s: string, open: string, k: nat)
    requires k <= |Scan(s, open)|
    ensures Scan(s, open)[k..] == Scan(Render(Scan(s, open)[k..], open), open)
    decreases |s|
  {
    var r := Scan(s, open);
    if k == 0 {
      assert r[0..] == r;
    } else {
      var t := TagAt(s, open);
      if t.Some? {
        var tail := s[|open| + t.value + 1..];
        ScanTagStep(s, open, t.value);
        DropCons(Tag(s[|open|..|open| + t.value]), Scan(tail, open), k);
        ScanSuffix(tail, open, k - 1);
      } else {
        ScanLitStep(s, open);
        DropCons(Lit(s[0]), Scan(s[1..], open), k);
        ScanSuffix(s[1..], open, k - 1);
      }
    }
  }

  /** Every literal piece stands where the pattern does not match. */
  lemma ScanLiteralsDoNotMatch(s: string, open: string, k: nat)
    requires k < |Scan(s, open)| && Scan(s, open)[k].Lit?
    ensures TagAt(Render(Scan(s, open)[k..], open), open).None?
  {
    ScanSuffix(s, open, k);
  }

  function Names(ps: seq<Piece>): (r: seq<string>)
    decreases |ps|
  {
    if |ps| == 0 then []
    else (if ps[0].Tag? then [ps[0].name] else []) + Names(ps[1..])
  }

  function Literals(ps: seq<Piece>): (r: string)
    decreases |ps|
  {
    if |ps| == 0 then []
    else (if ps[0].Lit? then [ps[0].c] else []) + Literals(ps[1..])
  }

  /** Total length of the tag texts `open + name + ")"` for the given names. */
  function TagsLength(names: seq<string>, open: string): nat
    decreases |names|
  {
    if |names| == 0 then 0 else |open| + |names[0]| + 1 + TagsLength(names[1..], open)
  }

  /** `re.findall(pattern, s)`: the captured names in order of occurrence. */
  function FindAll(s: string, open: string): (r: seq<string>)
    ensures forall k :: 0 <= k < |r| ==> NameOk(r[k])
  {
    var ps := Scan(s, open);
    NamesOk(ps, open);
    Names(ps)
  }

  lemma {:induction false} NamesOk(ps: seq<Piece>, open: string)
    requires TagsOk(ps)
    ensures forall k :: 0 <= k < |Names(ps)| ==> NameOk(Names(ps)[k])
    decreases |ps|
  {
    if |ps| > 0 {
      assert forall k :: 0 <= k < |ps[1..]| ==> ps[1..][k] == ps[k + 1];
      NamesOk(ps[1..], open);
    }
  }

  /** `re.sub(pattern, "", s)`: `s` with every matched tag removed. */
  function RemoveAll(s: string, open: string): string {
    Literals(Scan(s, open))
  }

  lemma {:induction false} RenderLength(ps: seq<Piece>, open: string)
    ensures |Render(ps, open)| == |Literals(ps)| + TagsLength(Names(ps), open)
    decreases |ps|
  {
    if |ps| > 0 {
      RenderLength(ps[1..], open);
      if ps[0].Tag? {
        assert Names(ps) == [ps[0].name] + Names(ps[1..]);
        assert Names(ps)[1..] == Names(ps[1..]);
      } else {
        assert Names(ps) == Names(ps[1..]);
      }
    }
  }

  /** Removal deletes exactly the text of the found tags and nothing else. */
  lemma RemoveAllLength(s: string, open: string)
    ensures |RemoveAll(s, open)| + TagsLength(FindAll(s, open), open) == |s|
  {
    RenderLength(Scan(s, open), open);
  }

  lemma {:induction false} NoNamesRendersLiterals(ps: seq<Piece>, open: string)
    requires Names(ps) == []
    ensures Literals(ps) == Render(ps, open)
    decreases |ps|
  {
    if |ps| > 0 {
      NoNamesRendersLiterals(ps[1..], open);
    }
  }

  /** Without a match, removal leaves the text as it is. */
  lemma RemoveAllWithoutMatch(s: string, open: string)
    requires FindAll(s, open) == []
    ensures RemoveAll(s, open) == s
  {
    NoNamesRendersLiterals(Scan(s, open), open);
  }

  /** Text without the opening character of the pattern passes through the scan as
      literals: it adds no match and survives removal. */
  lemma {:induction false} PlainPrefix(a: string, x: string, open: string)
    requires open != "" && open[0] !in a
    ensures FindAll(a + x, open) == FindAll(x, open)
    ensures RemoveAll(a + x, open) == a + RemoveAll(x, open)
    decreases |a|
  {
    if |a| == 0 {
      assert a + x == x;
    } else {
      var s := a + x;
      assert |s| > 0 && !(open <= s) && s[0] == a[0] && s[1..] == a[1..] + x by {
        assert s[0] == a[0] && s[0] != open[0];
        assert s[1..] == a[1..] + x;
      }
      NoOpenHere(s, open);
      PlainPrefix(a[1..], x, open);
      assert a == [a[0]] + a[1..];
    }
  }

  lemma CloseParenAfter(e: string, rest: string)
    requires ')' !in e
    ensures CloseParen(e + ")" + rest) == |e|
  {
    var s := e + ")" + rest;
    assert s[..|e|] == e && s[|e|] == ')';
    assert forall n :: |e| < n <= |s| ==> s[..n][|e|] == ')';
  }

  /** Where a tag starts, it is the first name found, and removal drops it. */
  lemma TagHere(s: string, open: string, n: nat)
    requires TagAt(s, open) == Some(n)
    ensures FindAll(s, open) == [s[|open|..|open| + n]] + FindAll(s[|open| + n + 1..], open)
    ensures RemoveAll(s, open) == RemoveAll(s[|open| + n + 1..], open)
  {
    ScanTagStep(s, open, n);
    var ps := Scan(s, open);
    assert ps[1..] == Scan(s[|open| + n + 1..], open);
  }

  /** A tag at the very start is the first match, and removal drops exactly its text. */
  lemma TagFirst(open: string, e: string, b: string)
    requires NameOk(e)
    ensures FindAll(open + e + ")" + b, open) == [e] + FindAll(b, open)
    ensures RemoveAll(open + e + ")" + b, open) == RemoveAll(b, open)
  {
    var s := open + e + ")" + b;
    var n := |e|;
    assert TagAt(s, open) == Some(n) && s[|open|..|open| + n] == e && s[|open| + n + 1..] == b by {
      assert s[|open|..] == e + ")" + b;
      CloseParenAfter(e, b);
    }
    TagHere(s, open, n);
  }

  /** Where the opening does not start, the first character is a literal. */
  lemma NoOpenHere(s: string, open: string)
    requires |s| > 0 && !(open <= s)
    ensures FindAll(s, open) == FindAll(s[1..], open)
    ensures RemoveAll(s, open) == [s[0]] + RemoveAll(s[1..], open)
  {
    ScanLitStep(s, open);
    var ps := Scan(s, open);
    assert ps[1..] == Scan(s[1..], open);
  }
}

=== FILE: prompt.dfy ===
/**
 The visual lists of `prompt_ver2` (src/slide_generator.py, lines 114-129): every image
 of a block becomes one line `(Caption: …) - (Filename: …)` in the table list when its
 `alt` lower-cases to `table` and in the figure list otherwise, and the prompt caps the
 number of sections at one more than the number of visuals. The rest of the prompt is
 fixed template text.
 */
module Prompt {
  import opened Options
  import opened Strings
  import opened Lines
  import opened Sections

  const NoneMark: string := "[None]"
  const CaptionOpen: string := "(Caption: "

  /** `alt.lower() == "table"` (line 123); a missing `alt` is the empty string. */
  predicate IsTable(v: Visual) {
    Lower(v.alt) == "table"
  }

  /** Under the modelled `lower`, the table test accepts exactly the five letters of
      `table`, each in either case. */
  lemma IsTableCases(v: Visual)
    ensures IsTable(v) <==> |v.alt| == 5 && forall k :: 0 <= k < 5 ==>
              v.alt[k] == "table"[k] || v.alt[k] as int == "table"[k] as int - 32
  {
    if |v.alt| == 5 {
      forall k | 0 <= k < 5
        ensures Lower(v.alt)[k] == "table"[k] <==> v.alt[k] == "table"[k] || v.alt[k] as int == "table"[k] as int - 32
      {
        LowerCharToAscii(v.alt[k], "table"[k]);
      }
    }
  }

  /** Image `v` is on side `table` and yields item `x`. */
  predicate OnSide(v: Visual, table: bool, x: string) {
    IsTable(v) == table && ItemStr(v) == x
  }

  /** `item_str` (lines 119-122). */
  function ItemStr(v: Visual): (r: string)
    ensures CaptionOpen <= r
  {
    CaptionOpen + Strip(v.caption) + ") - (Filename: " + v.src + ")"
  }

  /** The items the loop of lines 118-126 appends to the table list (`table`) or to the
      figure list (`!table`), written from the last image back. */
  function Items(images: seq<Visual>, table: bool): (r: seq<string>)
    ensures |r| <= |images|
    ensures forall k :: 0 <= k < |r| ==> CaptionOpen <= r[k]
    decreases |images|
  {
    if |images| == 0 then []
    else
      var last := |images| - 1;
      Items(images[..last], table) + (if IsTable(images[last]) == table then [ItemStr(images[last])] else [])
  }

  /** The loop of lines 116-126. */
  method Partition(images: seq<Visual>) returns (figures: seq<string>, tables: seq<string>)
    ensures figures == Items(images, false) && tables == Items(images, true)
  {
    figures := [];
    tables := [];
    for i := 0 to |images|
      invariant figures == Items(images[..i], false) && tables == Items(images[..i], true)
    {
      assert images[..i + 1][..i] == images[..i];
      var item := ItemStr(images[i]);
      if Lower(images[i].alt) == "table" {
        tables := tables + [item];
      } else {
        figures := figures + [item];
      }
    }
    assert images[..|images|] == images;
  }

  /** Each image lands in exactly one of the two lists. */
  lemma {:induction false} PartitionCounts(images: seq<Visual>)
    ensures |Items(images, true)| + |Items(images, false)| == |images|
    decreases |images|
  {
    if |images| > 0 {
      PartitionCounts(images[..|images| - 1]);
    }
  }

  /** Both lists keep the order of the images. */
  lemma {:induction false} ItemsAppend(a: seq<Visual>, b: seq<Visual>, table: bool)
    ensures Items(a + b, table) == Items(a, table) + Items(b, table)
    decreases |b|
  {
    if |b| == 0 {
      assert a + b == a;
    } else {
      var last := |b| - 1;
      assert (a + b)[..|a + b| - 1] == a + b[..last];
      ItemsAppend(a, b[..last], table);
    }
  }

  lemma ItemsLast(images: seq<Visual>, table: bool)
    requires |images| > 0
    ensures var last := |images| - 1;
            Items(images, table) == Items(images[..last], table)
                                    + (if IsTable(images[last]) == table then [ItemStr(images[last])] else [])
  {
  }

  lemma {:induction false} ItemsComeFromImages(images: seq<Visual>, table: bool, x: string)
    requires x in Items(images, table)
    ensures exists k :: 0 <= k < |images| && OnSide(images[k], table, x)
    decreases |images|
  {
    var last := |images| - 1;
    var init := images[..last];
    ItemsLast(images, table);
    if x in Items(init, table) {
      ItemsComeFromImages(init, table, x);
      var k :| 0 <= k < |init| && OnSide(init[k], table, x);
      assert images[k] == init[k];
    } else {
      assert OnSide(images[last], table, x);
    }
  }

  lemma {:induction false} ImagesGiveItems(images: seq<Visual>, table: bool, k: nat)
    requires k < |images| && IsTable(images[k]) == table
    ensures ItemStr(images[k]) in Items(images, table)
    decreases |images|
  {
    var last := |images| - 1;
    ItemsLast(images, table);
    if k < last {
      ImagesGiveItems(images[..last], table, k);
      assert images[..last][k] == images[k];
    }
  }

  /** An item is in a list exactly when some image of that side yields it. */
  lemma ItemsMembers(images: seq<Visual>, table: bool, x: string)
    ensures x in Items(images, table) <==> exists k :: 0 <= k < |images| && OnSide(images[k], table, x)
  {
    if x in Items(images, table) {
      ItemsComeFromImages(images, table, x);
    }
    if exists k :: 0 <= k < |images| && OnSide(images[k], table, x) {
      var k :| 0 <= k < |images| && OnSide(images[k], table, x);
      ImagesGiveItems(images, table, k);
    }
  }

  /** No item on a side exactly when no image belongs to it. */
  lemma {:induction false} ItemsEmpty(images: seq<Visual>, table: bool)
    ensures Items(images, table) == [] <==> forall k :: 0 <= k < |images| ==> IsTable(images[k]) != table
    decreases |images|
  {
    if |images| > 0 {
      var last := |images| - 1;
      ItemsEmpty(images[..last], table);
      assert forall k :: 0 <= k < last ==> images[..last][k] == images[k];
    }
  }

  /** `"\n".join(items) if items else "[None]"` (lines 128-129). */
  function RenderList(items: seq<string>): (r: string)
    ensures (forall k :: 0 <= k < |items| ==> CaptionOpen <= items[k]) ==> (r == NoneMark <==> items == [])
  {
    if |items| == 0 then NoneMark
    else
      assert forall k :: 0 <= k < |items| ==> CaptionOpen <= items[k] ==> |items[k]| > 0;
      if |items[0]| > 0 then
        JoinFirst("\n", items);
        Join("\n", items)
      else Join("\n", items)
  }

  /** A non-empty list of one-line items reads back line by line. */
  lemma RenderListLines(items: seq<string>)
    requires items != [] && forall k :: 0 <= k < |items| ==> '\n' !in items[k]
    ensures SplitOn(RenderList(items), '\n') == items
  {
    SplitOnJoin(items, '\n');
  }

  /** The figure list of the prompt is `[None]` exactly when every image is a table. */
  lemma FigureListNone(images: seq<Visual>)
    ensures RenderList(Items(images, false)) == NoneMark <==> forall k :: 0 <= k < |images| ==> IsTable(images[k])
  {
    ItemsEmpty(images, false);
  }

  /** The table list of the prompt is `[None]` exactly when no image is a table. */
  lemma TableListNone(images: seq<Visual>)
    ensures RenderList(Items(images, true)) == NoneMark <==> forall k :: 0 <= k < |images| ==> !IsTable(images[k])
  {
    ItemsEmpty(images, true);
  }

  /** `max_section` (line 114): one more section than there are listed visuals. */
  function MaxSection(images: seq<Visual>): (n: nat)
    ensures n == |Items(images, true)| + |Items(images, false)| + 1
  {
    PartitionCounts(images);
    |images| + 1
  }
}

=== FILE: reference_split.dfy ===
/**
 The bibliography branch of `flush_chunk` (src/data_processing.py, lines 47-63): the
 buffered text of a section whose title names a reference list is cut into lines, and
 the non-blank stripped lines are packed greedily into sub-buffers whose summed line
 length stays within `max_chunk_len`; each sub-buffer becomes one chunk under the title.
 */
module ReferenceSplit {
  import opened Strings
  import opened Lines

  /** `buffer_len`: the summed length of the lines in a sub-buffer. */
  function TotalLen(g: seq<string>): nat
    decreases |g|
  {
    if |g| == 0 then 0 else |g[0]| + TotalLen(g[1..])
  }

  function Flatten(gs: seq<seq<string>>): seq<string>
    decreases |gs|
  {
    if |gs| == 0 then [] else gs[0] + Flatten(gs[1..])
  }

  /** Within the cap, or a single line (which may exceed it on its own). */
  predicate Bounded(g: seq<string>, maxLen: int) {
    TotalLen(g) <= maxLen || |g| <= 1
  }

  /** Stripped non-empty lines, as the loop keeps them. */
  predicate CleanLines(g: seq<string>) {
    forall k :: 0 <= k < |g| ==> g[k] != "" && Stripped(g[k])
  }

  lemma TotalLenSnoc(g: seq<string>, line: string)
    ensures TotalLen(g + [line]) == TotalLen(g) + |line|
    decreases |g|
  {
    if |g| > 0 {
      assert (g + [line])[1..] == g[1..] + [line];
      TotalLenSnoc(g[1..], line);
    }
  }

  /** The loop of lines 51-61 from the state (`buffer`, `buffer_len`) = (`sub`, `subLen`),
      followed by the final `if buffer:` of line 62: the sub-buffers it emits, in order. */
  function Groups(lines: seq<string>, maxLen: int, sub: seq<string>, subLen: int): seq<seq<string>>
    decreases |lines|
  {
    if |lines| == 0 then
      if |sub| > 0 then [sub] else []
    else
      var line := Strip(lines[0]);
      if line == "" then
        Groups(lines[1..], maxLen, sub, subLen)
      else if subLen + |line| > maxLen then
        [sub] + Groups(lines[1..], maxLen, [line], |line|)
      else
        Groups(lines[1..], maxLen, sub + [line], subLen + |line|)
  }

  lemma GroupsSkip(lines: seq<string>, maxLen: int, sub: seq<string>, subLen: int)
    requires |lines| > 0 && Strip(lines[0]) == ""
    ensures Groups(lines, maxLen, sub, subLen) == Groups(lines[1..], maxLen, sub, subLen)
  {
  }

  lemma GroupsCut(lines: seq<string>, maxLen: int, sub: seq<string>, subLen: int)
    requires |lines| > 0 && Strip(lines[0]) != "" && subLen + |Strip(lines[0])| > maxLen
    ensures var line := Strip(lines[0]);
            Groups(lines, maxLen, sub, subLen) == [sub] + Groups(lines[1..], maxLen, [line], |line|)
  {
  }

  lemma GroupsAdd(lines: seq<string>, maxLen: int, sub: seq<string>, subLen: int)
    requires |lines| > 0 && Strip(lines[0]) != "" && subLen + |Strip(lines[0])| <= maxLen
    ensures var line := Strip(lines[0]);
            Groups(lines, maxLen, sub, subLen) == Groups(lines[1..], maxLen, sub + [line], subLen + |line|)
  {
  }

  lemma FlattenCons(g: seq<string>, gs: seq<seq<string>>)
    ensures Flatten([g] + gs) == g + Flatten(gs)
  {
    assert ([g] + gs)[1..] == gs;
  }

  lemma NonBlankLinesCons(lines: seq<string>)
    requires |lines| > 0 && Strip(lines[0]) != ""
    ensures NonBlankLines(lines) == [Strip(lines[0])] + NonBlankLines(lines[1..])
  {
  }

  /** Reading the sub-buffers in order gives back `sub` and then every non-blank
      stripped line. */
  lemma {:induction false} GroupsFlatten(lines: seq<string>, maxLen: int, sub: seq<string>, subLen: int)
    ensures Flatten(Groups(lines, maxLen, sub, subLen)) == sub + NonBlankLines(lines)
    decreases |lines|
  {
    if |lines| == 0 {
      if |sub| > 0 {
        FlattenCons(sub, []);
      }
      assert sub + [] == sub;
    } else {
      var line := Strip(lines[0]);
      if line == "" {
        GroupsSkip(lines, maxLen, sub, subLen);
        GroupsFlatten(lines[1..], maxLen, sub, subLen);
      } else {
        var rest := NonBlankLines(lines[1..]);
        NonBlankLinesCons(lines);
        if subLen + |line| > maxLen {
          GroupsCut(lines, maxLen, sub, subLen);
          GroupsFlatten(lines[1..], maxLen, [line], |line|);
          FlattenCons(sub, Groups(lines[1..], maxLen, [line], |line|));
        } else {
          GroupsAdd(lines, maxLen, sub, subLen);
          GroupsFlatten(lines[1..], maxLen, sub + [line], subLen + |line|);
          assert (sub + [line]) + rest == sub + ([line] + rest);
        }
      }
    }
  }

  /** Every group after the first holds at least one line, and so does a lone group;
      the first group continues `sub`. */
  predicate Shaped(r: seq<seq<string>>, sub: seq<string>) {
    && (forall k :: 1 <= k < |r| ==> |r[k]| > 0)
    && (|sub| > 0 ==> |r| > 0)
    && (|r| > 0 ==> sub <= r[0])
    && (|r| == 1 ==> |r[0]| > 0)
  }

  lemma ShapedCut(sub: seq<string>, line: string, rest: seq<seq<string>>)
    requires Shaped(rest, [line])
    ensures Shaped([sub] + rest, sub)
  {
    var r := [sub] + rest;
    assert |rest| > 0;
    assert forall k :: 1 <= k < |r| ==> r[k] == rest[k - 1];
  }

  lemma ShapedAdd(sub: seq<string>, line: string, r: seq<seq<string>>)
    requires Shaped(r, sub + [line])
    ensures Shaped(r, sub)
  {
    assert |r| > 0;
    assert sub <= sub + [line];
  }

  /** Blank lines play no part: grouping the lines is grouping their non-blank stripped
      forms. */
  lemma {:induction false} GroupsNonBlank(lines: seq<string>, maxLen: int, sub: seq<string>, subLen: int)
    ensures Groups(lines, maxLen, sub, subLen) == Groups(NonBlankLines(lines), maxLen, sub, subLen)
    decreases |lines|, 1
  {
    if |lines| > 0 {
      if Strip(lines[0]) == "" {
        GroupsSkip(lines, maxLen, sub, subLen);
        assert NonBlankLines(lines) == NonBlankLines(lines[1..]);
        GroupsNonBlank(lines[1..], maxLen, sub, subLen);
      } else {
        GroupsNonBlankKeep(lines, maxLen, sub, subLen);
      }
    }
  }

  /** `GroupsNonBlank` when the first line is kept. */
  lemma {:induction false} GroupsNonBlankKeep(lines: seq<string>, maxLen: int, sub: seq<string>, subLen: int)
    requires |lines| > 0 && Strip(lines[0]) != ""
    ensures Groups(lines, maxLen, sub, subLen) == Groups(NonBlankLines(lines), maxLen, sub, subLen)
    decreases |lines|, 0
  {
    var line := Strip(lines[0]);
    var rest := NonBlankLines(lines[1..]);
    assert NonBlankLines(lines) == [line] + rest;
    GroupsOfClean(line, rest, maxLen, sub, subLen);
    if subLen + |line| > maxLen {
      GroupsCut(lines, maxLen, sub, subLen);
      GroupsNonBlank(lines[1..], maxLen, [line], |line|);
    } else {
      GroupsAdd(lines, maxLen, sub, subLen);
      GroupsNonBlank(lines[1..], maxLen, sub + [line], subLen + |line|);
    }
  }

  /** One step of the loop on a line that is already stripped and non-empty. */
  lemma GroupsOfClean(line: string, rest: seq<string>, maxLen: int, sub: seq<string>, subLen: int)
    requires line != "" && Stripped(line)
    ensures Groups([line] + rest, maxLen, sub, subLen)
         == if subLen + |line| > maxLen then [sub] + Groups(rest, maxLen, [line], |line|)
            else Groups(rest, maxLen, sub + [line], subLen + |line|)
  {
    var l := [line] + rest;
    assert l[1..] == rest;
    assert Strip(l[0]) == line;
    if subLen + |line| > maxLen {
      GroupsCut(l, maxLen, sub, subLen);
    } else {
      GroupsAdd(l, maxLen, sub, subLen);
    }
  }

  lemma ShapeCutStep(lines: seq<string>, maxLen: int, sub: seq<string>, subLen: int)
    requires |lines| > 0 && Strip(lines[0]) != "" && subLen + |Strip(lines[0])| > maxLen
    requires var line := Strip(lines[0]); Shaped(Groups(lines[1..], maxLen, [line], |line|), [line])
    ensures Shaped(Groups(lines, maxLen, sub, subLen), sub)
  {
    var line := Strip(lines[0]);
    GroupsCut(lines, maxLen, sub, subLen);
    ShapedCut(sub, line, Groups(lines[1..], maxLen, [line], |line|));
  }

  lemma ShapeAddStep(lines: seq<string>, maxLen: int, sub: seq<string>, subLen: int)
    requires |lines| > 0 && Strip(lines[0]) != "" && subLen + |Strip(lines[0])| <= maxLen
    requires var line := Strip(lines[0]); Shaped(Groups(lines[1..], maxLen, sub + [line], subLen + |line|), sub + [line])
    ensures Shaped(Groups(lines, maxLen, sub, subLen), sub)
  {
    var line := Strip(lines[0]);
    GroupsAdd(lines, maxLen, sub, subLen);
    ShapedAdd(sub, line, Groups(lines[1..], maxLen, sub + [line], subLen + |line|));
  }

  /** The shape of the loop's output. */
  lemma {:induction false} GroupsShape(lines: seq<string>, maxLen: int, sub: seq<string>, subLen: int)
    ensures Shaped(Groups(lines, maxLen, sub, subLen), sub)
    decreases |lines|
  {
    if |lines| > 0 {
      var line := Strip(lines[0]);
      if line == "" {
        GroupsSkip(lines, maxLen, sub, subLen);
        GroupsShape(lines[1..], maxLen, sub, subLen);
      } else if subLen + |line| > maxLen {
        GroupsShape(lines[1..], maxLen, [line], |line|);
        ShapeCutStep(lines, maxLen, sub, subLen);
      } else {
        GroupsShape(lines[1..], maxLen, sub + [line], subLen + |line|);
        ShapeAddStep(lines, maxLen, sub, subLen);
      }
    }
  }

  /** Every group is within the cap or a single line, and holds stripped non-empty lines. */
  predicate AllBounded(gs: seq<seq<string>>, maxLen: int) {
    forall g :: g in gs ==> Bounded(g, maxLen) && CleanLines(g)
  }

  lemma AllBoundedCons(sub: seq<string>, rest: seq<seq<string>>, maxLen: int)
    requires Bounded(sub, maxLen) && CleanLines(sub) && AllBounded(rest, maxLen)
    ensures AllBounded([sub] + rest, maxLen)
  {
  }

  lemma BoundedCutStep(lines: seq<string>, maxLen: int, sub: seq<string>, subLen: int)
    requires |lines| > 0 && Strip(lines[0]) != "" && subLen + |Strip(lines[0])| > maxLen
    requires Bounded(sub, maxLen) && CleanLines(sub)
    requires var line := Strip(lines[0]); AllBounded(Groups(lines[1..], maxLen, [line], |line|), maxLen)
    ensures AllBounded(Groups(lines, maxLen, sub, subLen), maxLen)
  {
    var line := Strip(lines[0]);
    GroupsCut(lines, maxLen, sub, subLen);
    AllBoundedCons(sub, Groups(lines[1..], maxLen, [line], |line|), maxLen);
  }

  lemma {:induction false} GroupsBounded(lines: seq<string>, maxLen: int, sub: seq<string>, subLen: int)
    requires subLen == TotalLen(sub)
    requires Bounded(sub, maxLen) && CleanLines(sub)
    ensures AllBounded(Groups(lines, maxLen, sub, subLen), maxLen)
    decreases |lines|
  {
    if |lines| > 0 {
      var line := Strip(lines[0]);
      if line == "" {
        GroupsSkip(lines, maxLen, sub, subLen);
        GroupsBounded(lines[1..], maxLen, sub, subLen);
      } else if subLen + |line| > maxLen {
        assert TotalLen([line]) == |line|;
        GroupsBounded(lines[1..], maxLen, [line], |line|);
        BoundedCutStep(lines, maxLen, sub, subLen);
      } else {
        GroupsAdd(lines, maxLen, sub, subLen);
        TotalLenSnoc(sub, line);
        assert CleanLines(sub + [line]);
        GroupsBounded(lines[1..], maxLen, sub + [line], subLen + |line|);
      }
    }
  }

  /** Greedy packing: a group is closed only because the next group's first line would
      have pushed it over the cap. */
  predicate Greedy(r: seq<seq<string>>, maxLen: int) {
    forall k :: 0 < k < |r| ==> |r[k]| > 0 && TotalLen(r[k - 1]) + |r[k][0]| > maxLen
  }

  lemma GreedyCut(sub: seq<string>, line: string, rest: seq<seq<string>>, maxLen: int)
    requires Greedy(rest, maxLen) && Shaped(rest, [line])
    requires TotalLen(sub) + |line| > maxLen
    ensures Greedy([sub] + rest, maxLen)
  {
    var r := [sub] + rest;
    forall k | 0 < k < |r|
      ensures |r[k]| > 0 && TotalLen(r[k - 1]) + |r[k][0]| > maxLen
    {
      assert r[k] == rest[k - 1];
      if k > 1 {
        assert r[k - 1] == rest[k - 2];
      }
    }
  }

  lemma GreedyCutStep(lines: seq<string>, maxLen: int, sub: seq<string>, subLen: int)
    requires |lines| > 0 && Strip(lines[0]) != "" && subLen + |Strip(lines[0])| > maxLen
    requires subLen == TotalLen(sub)
    requires var line := Strip(lines[0]);
             var rest := Groups(lines[1..], maxLen, [line], |line|);
             Greedy(rest, maxLen) && Shaped(rest, [line])
    ensures Greedy(Groups(lines, maxLen, sub, subLen), maxLen)
  {
    var line := Strip(lines[0]);
    GroupsCut(lines, maxLen, sub, subLen);
    GreedyCut(sub, line, Groups(lines[1..], maxLen, [line], |line|), maxLen);
  }

  lemma {:induction false} GroupsGreedy(lines: seq<string>, maxLen: int, sub: seq<string>, subLen: int)
    requires subLen == TotalLen(sub)
    ensures Greedy(Groups(lines, maxLen, sub, subLen), maxLen)
    decreases |lines|
  {
    if |lines| > 0 {
      var line := Strip(lines[0]);
      if line == "" {
        GroupsSkip(lines, maxLen, sub, subLen);
        GroupsGreedy(lines[1..], maxLen, sub, subLen);
      } else if subLen + |line| > maxLen {
        assert TotalLen([line]) == |line|;
        GroupsGreedy(lines[1..], maxLen, [line], |line|);
        GroupsShape(lines[1..], maxLen, [line], |line|);
        GreedyCutStep(lines, maxLen, sub, subLen);
      } else {
        GroupsAdd(lines, maxLen, sub, subLen);
        TotalLenSnoc(sub, line);
        GroupsGreedy(lines[1..], maxLen, sub + [line], subLen + |line|);
      }
    }
  }

  lemma JoinsAreStripped(gs: seq<seq<string>>)
    requires forall g :: g in gs ==> CleanLines(g)
    ensures forall k :: 0 <= k < |gs| ==> Strip(Join("\n", gs[k])) == Join("\n", gs[k])
  {
    forall k | 0 <= k < |gs| ensures Strip(Join("\n", gs[k])) == Join("\n", gs[k]) {
      assert gs[k] in gs;
      JoinOfStrippedLines(gs[k]);
    }
  }

  /** The chunks emitted for the groups, each the title prefix, a newline and the
      group's lines joined by newlines. */
  function Chunks(prefix: string, lines: seq<string>, maxLen: int): (r: seq<string>)
    ensures var gs := Groups(lines, maxLen, [], 0);
            |r| == |gs| && forall k :: 0 <= k < |r| ==> r[k] == prefix + "\n" + Join("\n", gs[k])
  {
    var gs := Groups(lines, maxLen, [], 0);
    GroupsBounded(lines, maxLen, [], 0);
    JoinsAreStripped(gs);
    seq(|gs|, k requires 0 <= k < |gs| => prefix + "\n" + Strip(Join("\n", gs[k])))
  }

  /** The chunks' bodies, read in order, hold exactly the non-blank stripped lines:
      none lost, none repeated; there is a chunk as soon as there is such a line. */
  lemma ChunksCoverLines(lines: seq<string>, maxLen: int)
    ensures Flatten(Groups(lines, maxLen, [], 0)) == NonBlankLines(lines)
    ensures NonBlankLines(lines) != [] <==> |Groups(lines, maxLen, [], 0)| > 0
  {
    GroupsShape(lines, maxLen, [], 0);
    GroupsFlatten(lines, maxLen, [], 0);
    assert [] + NonBlankLines(lines) == NonBlankLines(lines);
    var gs := Groups(lines, maxLen, [], 0);
    if |gs| > 0 && |gs[0]| == 0 {
      assert gs[1..][0] == gs[1];
      assert Flatten(gs) == Flatten(gs[1..]) == gs[1] + Flatten(gs[2..]);
    }
  }

  /** An empty first group happens only when the first line alone overflows; the
      group after it starts with that line. */
  lemma EmptyFirstGroup(lines: seq<string>, maxLen: int)
    requires var gs := Groups(lines, maxLen, [], 0); |gs| > 0 && gs[0] == []
    ensures var gs := Groups(lines, maxLen, [], 0);
            && |gs| > 1 && |gs[1]| > 0 && |NonBlankLines(lines)| > 0
            && gs[1][0] == NonBlankLines(lines)[0] && |gs[1][0]| > maxLen
  {
    var gs := Groups(lines, maxLen, [], 0);
    GroupsShape(lines, maxLen, [], 0);
    GroupsGreedy(lines, maxLen, [], 0);
    ChunksCoverLines(lines, maxLen);
    assert gs[1..][0] == gs[1];
    assert Flatten(gs) == Flatten(gs[1..]);
    assert Flatten(gs[1..]) == gs[1] + Flatten(gs[2..]);
  }
}

=== FILE: scenarios.dfy ===
/**
 Worked runs of the chunker on small content lists.
 */
module Scenarios {
  import opened Options
  import opened Strings
  import opened Lines
  import opened ReferenceSplit
  import opened Chunker

  /** A heading followed by one paragraph gives one chunk: the title, a newline, the
      paragraph. */
  lemma HeadingThenParagraph()
    ensures SplitChunksByTitle([Entry(Text, " Intro", Some(1)), Entry(Text, "Hello ", None)], 1000)
         == ["Intro\nHello"]
  {
    var data := [Entry(Text, " Intro", Some(1)), Entry(Text, "Hello ", None)];
    assert Stripped("Intro") && Stripped("Hello");
    assert " Intro" == [' '] + "Intro";
    StripDropsLeadingSpace(' ', "Intro");
    assert "Hello " == "Hello" + [' '];
    StripDropsTrailingSpace("Hello", ' ');
    assert data[1..1] == [];
    var st0 := State(0, "", [], []);
    var st1 := Step(data, 1000, st0);
    assert st1 == State(1, "Intro", [], []);
    var st2 := Step(data, 1000, st1);
    var g := Gather(data, 1, [], false);
    assert g == Gathered(["Hello"], 1);
    assert [] + ["Hello"] == ["Hello"];
    assert TextLen(["Hello"]) == 5;
    assert st2 == State(2, "Intro", ["Hello"], []);
    IntroFlush();
  }

  /** The closing flush of that document emits the title, a newline and the paragraph. */
  lemma IntroFlush()
    ensures Flush("Intro", ["Hello"], 1000).emitted == ["Intro\nHello"]
  {
    assert Stripped("Intro") && Stripped("Hello");
    assert TextLen(["Hello"]) == 5;
    IntroIsNoBibliography();
    assert Join("\n", ["Hello"]) == "Hello";
    assert "Intro" + "\n" + "Hello" == "Intro\nHello";
  }

  /** A title shorter than both keywords is no bibliography title. */
  lemma IntroIsNoBibliography()
    ensures !IsReferenceTitle("Intro")
  {
    var low := Lower("Intro");
    assert |low| == 5;
    assert forall k: nat :: !OccursAt(low, "reference", k);
    assert forall k: nat :: !OccursAt(low, "t\U{E0}i li\U{1EC7}u tham kh\U{1EA3}o", k);
  }

  /** Under a bibliography title, a first line longer than the limit is preceded by a
      chunk that holds the title alone (lines 55-58). */
  lemma OversizedFirstReference(title: string, line: string)
    requires title == "Reference" && line == "abcd"
    ensures Flush(title, [line], 3).emitted == [title + "\n", title + "\n" + line]
  {
    assert Stripped(title) && Stripped(line);
    assert TextLen([line]) == 4;
    LowerReference(title);
    assert Join("\n", [line]) == line;
    FlushReference(title, [line], 3);
    SplitOnFree(line, '\n');
    NonBlankLinesSingle(line);
    GroupsCut([line], 3, [], 0);
    assert [line][1..] == [];
    assert Groups([line], 3, [], 0) == [[], [line]];
    assert Join("\n", []) == "";
    assert title + "\n" + "" == title + "\n";
  }

  /** "Reference" lower-cases to the keyword itself. */
  lemma LowerReference(title: string)
    requires title == "Reference"
    ensures OccursAt(Lower(title), "reference", 0)
  {
    assert Lower(title) == "reference";
  }
}

=== FILE: sections.dfy ===
/**
 `parse_summary_into_sections` (src/slide_generator.py, lines 258-313): the summary a
 language model wrote for one block is read line by line. A line starting with
 `### Section` opens a section, a line starting with `*` is a bullet of the open section,
 and every other line is ignored. The `(Image: …)` and `(Table: …)` tags of a bullet
 name the visuals of its section and are cut out of the bullet's text.

 `ParseLines` follows the loop of the source with its state (`current_section`,
 `current_bullets`, `image_filenames`, `sections`); `SpecParse` describes the same result
 section by section, and `ParseMatchesSpec` proves the two agree. Both take a `Reading`
 of the tags: `AsWritten` adds each captured run whole, as line 294 does, and
 `ItemByItem` adds the run's comma-separated items (see the finding in the README).
 `ParseSummary` is the parser as written, `ParseSummaryCorrected` the item-by-item one.
 */
module Sections {
  import opened Options
  import opened Strings
  import opened Lines
  import opened Order
  import opened Patterns

  // ---------------------------------------------------------------------------
  // Blocks and sections

  /** An image or table of a block: its `src`, `alt` and `caption`. */
  datatype Visual = Visual(src: string, alt: string, caption: string)

  /** The part of a block the parser reads: its `heading` and its `images`. */
  datatype Block = Block(heading: string, images: seq<Visual>)

  datatype Section = Section(heading: string, subHeading: string, text: string, images: seq<Visual>)

  const HeaderMark: string := "### Section"
  const ImageOpen: string := "(Image: "
  const TableOpen: string := "(Table: "

  // ---------------------------------------------------------------------------
  // Lines

  predicate IsHeader(line: string) {
    HeaderMark <= Strip(line)
  }

  predicate IsBullet(line: string) {
    !IsHeader(line) && "*" <= Strip(line)
  }

  /** `s.replace(pat, "")`: occurrences are removed left to right, without overlap. */
  function RemoveText(s: string, pat: string): (r: string)
    requires pat != ""
    ensures |r| <= |s|
    decreases |s|
  {
    if |s| == 0 then ""
    else if pat <= s then RemoveText(s[|pat|..], pat)
    else [s[0]] + RemoveText(s[1..], pat)
  }

  /** Text that cannot start an occurrence is kept as it is. */
  lemma {:induction false} RemoveTextKeeps(p: string, x: string, pat: string)
    requires pat != "" && pat[0] !in p
    ensures RemoveText(p + x, pat) == p + RemoveText(x, pat)
    decreases |p|
  {
    if |p| == 0 {
      assert p + x == x;
    } else {
      var px := p + x;
      assert px[0] == p[0] && px[0] != pat[0];
      assert RemoveText(px, pat) == [px[0]] + RemoveText(px[1..], pat);
      assert px[1..] == p[1..] + x;
      RemoveTextKeeps(p[1..], x, pat);
      assert [p[0]] + p[1..] == p;
    }
  }

  /** The `sub_heading` of a header line (line 285). */
  function SubHeading(line: string): string {
    Strip(RemoveText(Strip(line), "###"))
  }

  /** A section's `sub_heading` still starts with `Section`, so it is never empty and an
      open section is always truthy in the tests of lines 273 and 301. */
  lemma SubHeadingStartsWithSection(line: string)
    requires IsHeader(line)
    ensures "Section" <= SubHeading(line)
  {
    var l := Strip(line);
    HeaderMarkRemoved(l);
    SectionSurvivesStrip(RemoveText(l[|HeaderMark|..], "###"));
  }

  lemma HeaderMarkRemoved(l: string)
    requires HeaderMark <= l
    ensures RemoveText(l, "###") == " Section" + RemoveText(l[|HeaderMark|..], "###")
  {
    var t := l[|HeaderMark|..];
    assert l == "###" + (" Section" + t);
    assert l[3..] == " Section" + t;
    RemoveTextKeeps(" Section", t, "###");
  }

  lemma SectionSurvivesStrip(u: string)
    ensures "Section" <= Strip(" Section" + u)
  {
    assert " Section" + u == [' '] + ("Section" + u);
    StripDropsLeadingSpace(' ', "Section" + u);
    StripKeepsHead("Section", u);
  }

  /** `line[1:].strip()` of a bullet line. */
  function Content(line: string): string {
    var l := Strip(line);
    if |l| == 0 then "" else Strip(l[1..])
  }

  /** The runs the tags of a bullet capture (lines 292-294), images first. Each tag
      gives one run, commas and all. */
  function TagNamesAsWritten(content: string): (r: seq<string>)
    ensures forall k :: 0 <= k < |r| ==> NameOk(r[k])
  {
    FindAll(content, ImageOpen) + FindAll(content, TableOpen)
  }

  /** The comma-separated items of every run, stripped, blanks dropped, in order. */
  function SplitAll(runs: seq<string>): (r: seq<string>)
    ensures forall k :: 0 <= k < |r| ==> r[k] != "" && Stripped(r[k])
    decreases |runs|
  {
    if |runs| == 0 then []
    else
      var head := Pieces(runs[0], ',');
      var rest := SplitAll(runs[1..]);
      assert forall k :: |head| <= k < |head| + |rest| ==> (head + rest)[k] == rest[k - |head|];
      head + rest
  }

  /** The filenames a bullet tags, reading the comma-separated lists that the prompt's
      tag format asks for item by item. */
  function TagNames(content: string): (r: seq<string>)
    ensures forall k :: 0 <= k < |r| ==> r[k] != "" && Stripped(r[k])
  {
    SplitAll(TagNamesAsWritten(content))
  }

  /** When every run is non-empty, stripped and free of commas, reading item by item
      gives back the runs themselves. */
  lemma {:induction false} SplitAllSingle(runs: seq<string>)
    requires forall k :: 0 <= k < |runs| ==> runs[k] != "" && Stripped(runs[k]) && ',' !in runs[k]
    ensures SplitAll(runs) == runs
    decreases |runs|
  {
    if |runs| > 0 {
      PiecesJoin([runs[0]], ',');
      SplitAllSingle(runs[1..]);
    }
  }

  /** The text kept for a bullet (lines 296-297). */
  function BulletText(content: string): (r: string)
    ensures Stripped(r) && |r| <= |content|
  {
    var noImages := RemoveAll(content, ImageOpen);
    RemoveAllLength(content, ImageOpen);
    RemoveAllLength(noImages, TableOpen);
    Strip(RemoveAll(noImages, TableOpen))
  }

  /** A bullet without image or table tags keeps all of its text, equation tags
      included. */
  lemma BulletTextUntagged(content: string)
    requires FindAll(content, ImageOpen) == [] && FindAll(content, TableOpen) == []
    ensures BulletText(content) == Strip(content)
  {
    RemoveAllWithoutMatch(content, ImageOpen);
    RemoveAllWithoutMatch(content, TableOpen);
  }

  /** An image tag between plain texts is cut out, and the texts on either side are kept,
      joined and stripped. */
  lemma BulletTextImageTag(a: string, n: string, b: string)
    requires '(' !in a && '(' !in b && NameOk(n)
    ensures BulletText(a + ImageOpen + n + ")" + b) == Strip(a + b)
  {
    var tag := ImageOpen + n + ")" + b;
    assert a + ImageOpen + n + ")" + b == a + tag;
    PlainPrefix(a, tag, ImageOpen);
    TagFirst(ImageOpen, n, b);
    PlainAlone(b, ImageOpen);
    PlainAlone(a + b, TableOpen);
  }

  /** A table tag between plain texts is cut out in the same way; the image pattern
      passes over it, since `(Table: ` does not start `(Image: `. */
  lemma BulletTextTableTag(a: string, n: string, b: string)
    requires '(' !in a && '(' !in b && '(' !in n && NameOk(n)
    ensures BulletText(a + TableOpen + n + ")" + b) == Strip(a + b)
  {
    var tag := TableOpen + n + ")" + b;
    assert a + TableOpen + n + ")" + b == a + tag;
    TableTagPassesImages(n, b);
    PlainPrefix(a, tag, ImageOpen);
    RemoveAllWithoutMatch(a + tag, ImageOpen);
    PlainPrefix(a, tag, TableOpen);
    TagFirst(TableOpen, n, b);
    PlainAlone(b, TableOpen);
  }

  /** Text without `(` has no match and survives removal. */
  lemma PlainAlone(a: string, open: string)
    requires open != "" && open[0] == '(' && '(' !in a
    ensures FindAll(a, open) == [] && RemoveAll(a, open) == a
  {
    PlainPrefix(a, "", open);
    assert a + "" == a;
    assert Scan("", open) == [];
  }

  /** The image pattern finds nothing in a table tag followed by plain text. */
  lemma TableTagPassesImages(n: string, b: string)
    requires '(' !in b && '(' !in n
    ensures FindAll(TableOpen + n + ")" + b, ImageOpen) == []
  {
    var s := TableOpen + n + ")" + b;
    var rest := "Table: " + n + ")" + b;
    assert s[1] == 'T' && !(ImageOpen <= s);
    assert s[1..] == rest;
    NoOpenHere(s, ImageOpen);
    assert '(' !in "Table: " + n + ")";
    PlainPrefix("Table: " + n + ")", b, ImageOpen);
    assert rest == "Table: " + n + ")" + b;
    PlainAlone(b, ImageOpen);
  }

  // ---------------------------------------------------------------------------
  // Images of a section (lines 265, 278-282)

  predicate HasSrc(images: seq<Visual>, src: string) {
    exists k :: 0 <= k < |images| && images[k].src == src
  }

  /** `image_lookup[src]`: the dictionary built from the block's images keeps, for each
      `src`, the last image with it. */
  function Lookup(images: seq<Visual>, src: string): (r: Option<Visual>)
    ensures r.Some? <==> HasSrc(images, src)
    ensures r.Some? ==> exists k :: 0 <= k < |images| && images[k] == r.value && r.value.src == src
                                   && forall m :: k < m < |images| ==> images[m].src != src
    decreases |images|
  {
    if |images| == 0 then None
    else
      var last := |images| - 1;
      if images[last].src == src then Some(images[last])
      else
        var r := Lookup(images[..last], src);
        assert forall k :: 0 <= k < last ==> images[..last][k] == images[k];
        r
  }

  function Srcs(vs: seq<Visual>): (r: seq<string>)
    ensures |r| == |vs| && forall k :: 0 <= k < |vs| ==> r[k] == vs[k].src
  {
    seq(|vs|, k requires 0 <= k < |vs| => vs[k].src)
  }

  /** `[image_lookup[f] for f in names if f in image_lookup]`: one image per name the
      block knows, in the order of the names. */
  function PickImages(images: seq<Visual>, names: seq<string>): (r: seq<Visual>)
    ensures |r| <= |names|
    ensures forall v :: v in r ==> v in images && Lookup(images, v.src) == Some(v)
    ensures forall n :: n in Srcs(r) <==> n in names && HasSrc(images, n)
    decreases |names|
  {
    if |names| == 0 then []
    else
      var rest := PickImages(images, names[1..]);
      match Lookup(images, names[0])
      case None => rest
      case Some(v) =>
        var r := [v] + rest;
        assert Srcs(r) == [v.src] + Srcs(rest);
        r
  }

  /** Picked in the order of sorted names, the images are sorted by `src`. */
  lemma {:induction false} PickImagesSorted(images: seq<Visual>, names: seq<string>)
    requires StrictlySorted(names)
    ensures StrictlySorted(Srcs(PickImages(images, names)))
    decreases |names|
  {
    if |names| > 0 {
      var rest := PickImages(images, names[1..]);
      PickImagesSorted(images, names[1..]);
      match Lookup(images, names[0])
      case None =>
      case Some(v) =>
        SortedCons(names[0], Srcs(rest), names[1..]);
        assert Srcs([v] + rest) == [names[0]] + Srcs(rest);
    }
  }

  /** A sorted list whose items all come after `x` stays sorted with `x` in front. */
  lemma SortedCons(x: string, xs: seq<string>, bigger: seq<string>)
    requires StrictlySorted(xs) && StrictlySorted([x] + bigger)
    requires forall n :: n in xs ==> n in bigger
    ensures StrictlySorted([x] + xs)
  {
    forall j | 0 <= j < |bigger| ensures Less(x, bigger[j]) {
      assert ([x] + bigger)[0] == x && ([x] + bigger)[j + 1] == bigger[j];
      assert Less(([x] + bigger)[0], ([x] + bigger)[j + 1]);
    }
    forall i, j | 0 <= i < j < |[x] + xs| ensures Less(([x] + xs)[i], ([x] + xs)[j]) {
      if i > 0 {
        assert ([x] + xs)[i] == xs[i - 1] && ([x] + xs)[j] == xs[j - 1];
      } else {
        var y := ([x] + xs)[j];
        assert y == xs[j - 1];
        assert y in bigger;
        var m :| 0 <= m < |bigger| && bigger[m] == y;
        assert Less(x, bigger[m]);
      }
    }
  }

  /** The section built from a header's sub-heading and the bullets and tagged names
      collected under it. */
  function MkSection(block: Block, sub: string, bullets: seq<string>, names: seq<string>): (s: Section)
    ensures s.heading == block.heading && s.subHeading == sub
    ensures StrictlySorted(Srcs(s.images))
    ensures forall n :: n in Srcs(s.images) <==> n in names && HasSrc(block.images, n)
    ensures forall v :: v in s.images ==> v in block.images && Lookup(block.images, v.src) == Some(v)
  {
    PickImagesSorted(block.images, SortedUnique(names));
    Section(block.heading, sub, Strip(Join("\n", bullets)), PickImages(block.images, SortedUnique(names)))
  }

  /** The section's text (lines 277 and 305), split again into lines as the drawing code
      does (line 432), gives back exactly the non-blank bullets, stripped and in order;
      clean bullets come back as they are. */
  lemma SectionTextLines(block: Block, sub: string, bullets: seq<string>, names: seq<string>)
    requires forall k :: 0 <= k < |bullets| ==> '\n' !in bullets[k]
    ensures Pieces(MkSection(block, sub, bullets, names).text, '\n') == NonBlankLines(bullets)
    ensures (forall k :: 0 <= k < |bullets| ==> bullets[k] != "" && Stripped(bullets[k]))
            ==> Pieces(MkSection(block, sub, bullets, names).text, '\n') == bullets
  {
    var j := Join("\n", bullets);
    NonBlankLinesStrip(j);
    if |bullets| == 0 {
      assert SplitOn("", '\n') == [""];
      NonBlankLinesSingle("");
    } else {
      assert "\n" == ['\n'];
      SplitOnJoin(bullets, '\n');
    }
    if forall k :: 0 <= k < |bullets| ==> bullets[k] != "" && Stripped(bullets[k]) {
      NonBlankLinesOfClean(bullets);
    }
  }

  // ---------------------------------------------------------------------------
  // The loop of lines 270-299

  /** How the filenames of a bullet's tags are read: as the source does, one name per
      tag (line 294), or item by item, splitting each tag's run on commas. */
  datatype Reading = AsWritten | ItemByItem

  /** The filenames a bullet's content tags under `rd`. */
  function Tagged(rd: Reading, content: string): (r: seq<string>)
    ensures forall k :: 0 <= k < |r| ==> r[k] != ""
    ensures rd.AsWritten? ==> forall k :: 0 <= k < |r| ==> ')' !in r[k]
    ensures rd.ItemByItem? ==> forall k :: 0 <= k < |r| ==> Stripped(r[k])
  {
    match rd
    case AsWritten => TagNamesAsWritten(content)
    case ItemByItem => TagNames(content)
  }

  /** The loop variables: the open section's sub-heading, its bullets, the filenames
      tagged in them, and the sections closed so far. */
  datatype Acc = Acc(current: Option<string>, bullets: seq<string>, names: seq<string>, sections: seq<Section>)

  /** Closing the open section (lines 273-283 and 301-311): it is kept only if it has a
      non-empty sub-heading and at least one bullet. */
  function Close(acc: Acc, block: Block): (r: seq<Section>)
    ensures acc.sections <= r && |r| <= |acc.sections| + 1
  {
    if acc.current.Some? && acc.current.value != "" && |acc.bullets| > 0 then
      acc.sections + [MkSection(block, acc.current.value, acc.bullets, acc.names)]
    else acc.sections
  }

  /** One pass of the loop body on `line`. */
  function ParseLine(acc: Acc, line: string, block: Block, rd: Reading): Acc {
    if IsHeader(line) then
      Acc(Some(SubHeading(line)), [], [], Close(acc, block))
    else if IsBullet(line) then
      var content := Content(line);
      Acc(acc.current, acc.bullets + [BulletText(content)], acc.names + Tagged(rd, content), acc.sections)
    else acc
  }

  /** Away from headers, a line adds its bullet and its filenames. */
  lemma ParseLineBody(acc: Acc, line: string, block: Block, rd: Reading)
    requires !IsHeader(line)
    ensures ParseLine(acc, line, block, rd)
         == Acc(acc.current, acc.bullets + LineBullets(line), acc.names + LineNames(line, rd), acc.sections)
  {
    if !IsBullet(line) {
      assert acc.bullets + [] == acc.bullets;
      assert acc.names + [] == acc.names;
    }
  }

  function Feed(lines: seq<string>, acc: Acc, block: Block, rd: Reading): Acc
    decreases |lines|
  {
    if |lines| == 0 then acc else Feed(lines[1..], ParseLine(acc, lines[0], block, rd), block, rd)
  }

  /** The loop over `lines` from the initial state, then the final close. */
  function ParseLines(lines: seq<string>, block: Block, rd: Reading): seq<Section> {
    Close(Feed(lines, Acc(None, [], [], []), block, rd), block)
  }

  /** `parse_summary_into_sections(summarized_text, block)`: every section carries the
      block's heading and a sub-heading starting with `Section`, and there are no more
      sections than header lines. */
  function ParseSummary(text: string, block: Block): (r: seq<Section>)
    ensures var lines := SplitLines(Strip(text));
            && |r| <= CountHeaders(lines)
            && forall s :: s in r ==> s.heading == block.heading && "Section" <= s.subHeading
  {
    var lines := SplitLines(Strip(text));
    ParseMatchesSpec(lines, block, AsWritten);
    ParseLines(lines, block, AsWritten)
  }

  /** The same parser reading each tag's comma-separated list item by item, as the
      prompt's tag format `(Image: figure1.png, figure2.jpg)` intends. */
  function ParseSummaryCorrected(text: string, block: Block): (r: seq<Section>)
    ensures var lines := SplitLines(Strip(text));
            && |r| <= CountHeaders(lines)
            && forall s :: s in r ==> s.heading == block.heading && "Section" <= s.subHeading
  {
    var lines := SplitLines(Strip(text));
    ParseMatchesSpec(lines, block, ItemByItem);
    ParseLines(lines, block, ItemByItem)
  }

  // ---------------------------------------------------------------------------
  // The same result, section by section

  /** Index of the first header line, or `|lines|`. */
  function FirstHeader(lines: seq<string>): (n: nat)
    ensures n <= |lines|
    ensures forall k :: 0 <= k < n ==> !IsHeader(lines[k])
    ensures n < |lines| ==> IsHeader(lines[n])
    decreases |lines|
  {
    if |lines| == 0 || IsHeader(lines[0]) then 0 else 1 + FirstHeader(lines[1..])
  }

  function CountHeaders(lines: seq<string>): nat
    decreases |lines|
  {
    if |lines| == 0 then 0 else (if IsHeader(lines[0]) then 1 else 0) + CountHeaders(lines[1..])
  }

  /** The bullet text a line contributes: one for a bullet line, none otherwise. */
  function LineBullets(line: string): seq<string> {
    if IsBullet(line) then [BulletText(Content(line))] else []
  }

  /** The filenames a line tags: those of its bullet, none for other lines. */
  function LineNames(line: string, rd: Reading): seq<string> {
    if IsBullet(line) then Tagged(rd, Content(line)) else []
  }

  /** The texts of the bullet lines among `seg`. */
  function BulletsOf(seg: seq<string>): (r: seq<string>)
    decreases |seg|
  {
    if |seg| == 0 then [] else LineBullets(seg[0]) + BulletsOf(seg[1..])
  }

  /** The filenames tagged by the bullet lines among `seg`. */
  function NamesOf(seg: seq<string>, rd: Reading): seq<string>
    decreases |seg|
  {
    if |seg| == 0 then [] else LineNames(seg[0], rd) + NamesOf(seg[1..], rd)
  }

  /** Lines before the first header are skipped. Each header owns the lines up to the
      next header; it yields a section exactly when they hold a bullet, and the
      section's images are those tagged in these lines alone. */
  function SpecParse(lines: seq<string>, block: Block, rd: Reading): (r: seq<Section>)
    ensures |r| <= CountHeaders(lines)
    ensures forall s :: s in r ==> s.heading == block.heading && "Section" <= s.subHeading
    decreases |lines|
  {
    var n := FirstHeader(lines);
    if n == |lines| then []
    else
      var body := lines[n + 1..];
      var m := FirstHeader(body);
      var seg := body[..m];
      var rest := SpecParse(body[m..], block, rd);
      SubHeadingStartsWithSection(lines[n]);
      HeaderSegmentCount(lines, n, m);
      (if |BulletsOf(seg)| > 0 then [MkSection(block, SubHeading(lines[n]), BulletsOf(seg), NamesOf(seg, rd))] else [])
      + rest
  }

  /** The lines after a header's segment hold one header fewer. */
  lemma HeaderSegmentCount(lines: seq<string>, n: nat, m: nat)
    requires n == FirstHeader(lines) < |lines| && m == FirstHeader(lines[n + 1..])
    ensures CountHeaders(lines[n + 1..][m..]) + 1 == CountHeaders(lines)
  {
    var body := lines[n + 1..];
    CountHeadersDrop(lines, n);
    assert lines[n..][1..] == body;
    CountHeadersDrop(body, m);
  }

  /** Dropping a prefix never adds headers, and dropping one without headers keeps the
      count. */
  lemma {:induction false} CountHeadersDrop(lines: seq<string>, k: nat)
    requires k <= |lines|
    ensures CountHeaders(lines[k..]) <= CountHeaders(lines)
    ensures (forall j :: 0 <= j < k ==> !IsHeader(lines[j])) ==> CountHeaders(lines[k..]) == CountHeaders(lines)
    decreases k
  {
    if k > 0 {
      assert lines[k..] == lines[1..][k - 1..];
      CountHeadersDrop(lines[1..], k - 1);
      assert forall j :: 0 <= j < k - 1 ==> lines[1..][j] == lines[j + 1];
    }
  }

  // ---------------------------------------------------------------------------
  // Agreement of the loop with the section-by-section description

  lemma {:induction false} FeedAppend(a: seq<string>, b: seq<string>, acc: Acc, block: Block, rd: Reading)
    ensures Feed(a + b, acc, block, rd) == Feed(b, Feed(a, acc, block, rd), block, rd)
    decreases |a|
  {
    if |a| == 0 {
      assert a + b == b;
    } else {
      assert (a + b)[0] == a[0];
      assert (a + b)[1..] == a[1..] + b;
      FeedAppend(a[1..], b, ParseLine(acc, a[0], block, rd), block, rd);
    }
  }

  lemma AppendAssoc<T>(a: seq<T>, b: seq<T>, c: seq<T>)
    ensures (a + b) + c == a + (b + c)
  {
  }

  lemma FeedBodyStep(seg: seq<string>, acc: Acc, block: Block, rd: Reading)
    requires |seg| > 0 && !IsHeader(seg[0])
    ensures Feed(seg, acc, block, rd)
         == Feed(seg[1..], Acc(acc.current, acc.bullets + LineBullets(seg[0]), acc.names + LineNames(seg[0], rd), acc.sections), block, rd)
  {
    ParseLineBody(acc, seg[0], block, rd);
  }

  /** Within a section, the loop only collects bullets and their filenames. */
  lemma {:induction false} FeedBody(seg: seq<string>, acc: Acc, block: Block, rd: Reading)
    requires forall k :: 0 <= k < |seg| ==> !IsHeader(seg[k])
    ensures Feed(seg, acc, block, rd)
         == Acc(acc.current, acc.bullets + BulletsOf(seg), acc.names + NamesOf(seg, rd), acc.sections)
    decreases |seg|
  {
    if |seg| == 0 {
      assert acc.bullets + [] == acc.bullets;
      assert acc.names + [] == acc.names;
    } else {
      var line := seg[0];
      FeedBodyStep(seg, acc, block, rd);
      var next := Acc(acc.current, acc.bullets + LineBullets(line), acc.names + LineNames(line, rd), acc.sections);
      FeedBody(seg[1..], next, block, rd);
      AppendAssoc(acc.bullets, LineBullets(line), BulletsOf(seg[1..]));
      AppendAssoc(acc.names, LineNames(line, rd), NamesOf(seg[1..], rd));
    }
  }

  /** The section still open in `acc`, extended by the lines `seg`, if it is kept. */
  function Pending(acc: Acc, seg: seq<string>, block: Block, rd: Reading): seq<Section> {
    var b := acc.bullets + BulletsOf(seg);
    if acc.current.Some? && acc.current.value != "" && |b| > 0 then
      [MkSection(block, acc.current.value, b, acc.names + NamesOf(seg, rd))]
    else []
  }

  lemma PendingShift(acc: Acc, seg: seq<string>, block: Block, rd: Reading)
    ensures Pending(acc, seg, block, rd)
         == Pending(Acc(acc.current, acc.bullets + BulletsOf(seg), acc.names + NamesOf(seg, rd), acc.sections), [], block, rd)
  {
    assert acc.bullets + BulletsOf(seg) + BulletsOf([]) == acc.bullets + BulletsOf(seg);
    assert acc.names + NamesOf(seg, rd) + NamesOf([], rd) == acc.names + NamesOf(seg, rd);
  }

  lemma ClosePending(acc: Acc, block: Block, rd: Reading)
    ensures Close(acc, block) == acc.sections + Pending(acc, [], block, rd)
  {
    assert acc.bullets + BulletsOf([]) == acc.bullets;
    assert acc.names + NamesOf([], rd) == acc.names;
  }

  /** From any loop state: the sections closed so far, then the open one completed by
      the lines up to the next header, then the sections the remaining headers open. */
  lemma {:induction false} FeedSpec(lines: seq<string>, acc: Acc, block: Block, rd: Reading)
    ensures var m := FirstHeader(lines);
            Close(Feed(lines, acc, block, rd), block)
            == acc.sections + Pending(acc, lines[..m], block, rd) + SpecParse(lines[m..], block, rd)
    decreases |lines|, 1
  {
    var m := FirstHeader(lines);
    assert lines == lines[..m] + lines[m..];
    FeedAppend(lines[..m], lines[m..], acc, block, rd);
    FeedBody(lines[..m], acc, block, rd);
    var acc1 := Acc(acc.current, acc.bullets + BulletsOf(lines[..m]), acc.names + NamesOf(lines[..m], rd), acc.sections);
    assert Feed(lines, acc, block, rd) == Feed(lines[m..], acc1, block, rd);
    PendingShift(acc, lines[..m], block, rd);
    if m < |lines| {
      FeedSpecAt(lines[m..], acc1, block, rd);
    } else {
      assert lines[m..] == [];
      ClosePending(acc1, block, rd);
    }
  }

  /** `FeedSpec` at a header line. */
  lemma {:induction false} FeedSpecAt(lines: seq<string>, acc: Acc, block: Block, rd: Reading)
    requires |lines| > 0 && IsHeader(lines[0])
    ensures Close(Feed(lines, acc, block, rd), block) == acc.sections + Pending(acc, [], block, rd) + SpecParse(lines, block, rd)
    decreases |lines|, 0
  {
    var body := lines[1..];
    var sub := SubHeading(lines[0]);
    SubHeadingStartsWithSection(lines[0]);
    var acc2 := Acc(Some(sub), [], [], Close(acc, block));
    assert Feed(lines, acc, block, rd) == Feed(body, acc2, block, rd);
    FeedSpec(body, acc2, block, rd);
    ClosePending(acc, block, rd);
    var m2 := FirstHeader(body);
    var seg := body[..m2];
    assert [] + BulletsOf(seg) == BulletsOf(seg);
    assert [] + NamesOf(seg, rd) == NamesOf(seg, rd);
    assert FirstHeader(lines) == 0;
    assert lines[0..] == lines;
    assert SpecParse(lines, block, rd) == Pending(acc2, seg, block, rd) + SpecParse(body[m2..], block, rd);
    AppendAssoc(acc.sections, Pending(acc, [], block, rd), Pending(acc2, seg, block, rd) + SpecParse(body[m2..], block, rd));
    AppendAssoc(acc.sections + Pending(acc, [], block, rd), Pending(acc2, seg, block, rd), SpecParse(body[m2..], block, rd));
  }

  /** The loop computes the section-by-section description. */
  lemma ParseMatchesSpec(lines: seq<string>, block: Block, rd: Reading)
    ensures ParseLines(lines, block, rd) == SpecParse(lines, block, rd)
  {
    FeedSpec(lines, Acc(None, [], [], []), block, rd);
    var m := FirstHeader(lines);
    if m < |lines| {
      assert FirstHeader(lines[m..]) == 0;
      assert lines[m..][1..] == lines[m + 1..];
    }
  }

  /** Bullets before the first header are discarded. */
  lemma PreambleDiscarded(pre: seq<string>, rest: seq<string>, block: Block, rd: Reading)
    requires forall k :: 0 <= k < |pre| ==> !IsHeader(pre[k])
    ensures ParseLines(pre + rest, block, rd) == ParseLines(rest, block, rd)
  {
    var acc0 := Acc(None, [], [], []);
    FeedAppend(pre, rest, acc0, block, rd);
    FeedBody(pre, acc0, block, rd);
    FeedSpec(rest, Feed(pre, acc0, block, rd), block, rd);
    FeedSpec(rest, acc0, block, rd);
  }

  /** A line that is neither a header nor a bullet changes nothing. */
  lemma IgnoredLine(a: seq<string>, line: string, b: seq<string>, block: Block, rd: Reading)
    requires !IsHeader(line) && !IsBullet(line)
    ensures ParseLines(a + [line] + b, block, rd) == ParseLines(a + b, block, rd)
  {
    var acc0 := Acc(None, [], [], []);
    assert a + [line] + b == a + ([line] + b);
    FeedAppend(a, [line] + b, acc0, block, rd);
    FeedAppend(a, b, acc0, block, rd);
    assert ([line] + b)[1..] == b;
  }

  // ---------------------------------------------------------------------------
  // A tag that lists two files, in the format the prompt asks for

  lemma SingleTagImages(run: string)
    requires NameOk(run)
    ensures FindAll(ImageOpen + run + ")", ImageOpen) == [run]
  {
    assert ImageOpen + run + ")" == ImageOpen + run + ")" + "";
    TagFirst(ImageOpen, run, "");
    assert Scan("", ImageOpen) == [];
  }

  /** A text that does not start with the opening and holds its first character nowhere
      else has no tag. */
  lemma NoTagAfterHead(c: string, open: string)
    requires open != "" && |c| > 0 && !(open <= c) && open[0] !in c[1..]
    ensures FindAll(c, open) == []
  {
    NoOpenHere(c, open);
    assert c[1..] + "" == c[1..];
    PlainPrefix(c[1..], "", open);
    assert Scan("", open) == [];
  }

  lemma SingleTagNoTables(run: string)
    requires '(' !in run
    ensures FindAll(ImageOpen + run + ")", TableOpen) == []
  {
    var c := ImageOpen + run + ")";
    assert c[1] == 'I' && TableOpen[1] == 'T';
    assert c[1..] == "Image: " + run + ")";
    NoTagAfterHead(c, TableOpen);
  }

  /** A bullet that is one image tag captures its whole run as a single name. */
  lemma SingleTagRuns(run: string)
    requires NameOk(run) && '(' !in run
    ensures TagNamesAsWritten(ImageOpen + run + ")") == [run]
  {
    SingleTagImages(run);
    SingleTagNoTables(run);
    assert [run] + [] == [run];
  }

  /** Two names listed with a comma, as the prompt's tag format has it. */
  function ListTag(a: string, b: string): string {
    ImageOpen + a + ", " + b + ")"
  }

  predicate PlainName(a: string) {
    a != "" && Stripped(a) && ',' !in a && ')' !in a && '(' !in a
  }

  /** As written, such a tag asks for one image whose `src` is the whole list; a block
      without such an image gives the section no image at all. */
  lemma ListTagAsWritten(a: string, b: string, block: Block, sub: string, bullets: seq<string>)
    requires PlainName(a) && PlainName(b)
    ensures var s := MkSection(block, sub, bullets, TagNamesAsWritten(ListTag(a, b)));
            && (forall n :: n in Srcs(s.images) <==> n == a + ", " + b && HasSrc(block.images, n))
            && (!HasSrc(block.images, a + ", " + b) ==> s.images == [])
  {
    var run := a + ", " + b;
    assert ListTag(a, b) == ImageOpen + run + ")";
    assert NameOk(run) && '(' !in run;
    SingleTagRuns(run);
    assert [run][1..] == [];
    assert SortedUnique([run]) == [run];
  }

  /** The run `a, b` lists `a` and `b`. */
  lemma SplitNamesPair(a: string, b: string)
    requires PlainName(a) && PlainName(b)
    ensures Pieces(a + ", " + b, ',') == [a, b]
  {
    assert a + ", " + b == a + [','] + (" " + b);
    SplitOnPiece(a, ',', " " + b);
    SplitOnFree(" " + b, ',');
    NonBlankLinesAppend([a], [" " + b]);
    NonBlankLinesSingle(a);
    assert " " + b == [' '] + b;
    StripDropsLeadingSpace(' ', b);
    NonBlankLinesSingle(" " + b);
  }

  /** Read item by item, the tag asks for both images. */
  lemma ListTagCorrected(a: string, b: string, block: Block, sub: string, bullets: seq<string>)
    requires PlainName(a) && PlainName(b)
    ensures TagNames(ListTag(a, b)) == [a, b]
    ensures forall n :: n in Srcs(MkSection(block, sub, bullets, TagNames(ListTag(a, b))).images)
                      <==> (n == a || n == b) && HasSrc(block.images, n)
  {
    ListTagNames(a, b);
  }

  lemma ListTagNames(a: string, b: string)
    requires PlainName(a) && PlainName(b)
    ensures TagNames(ListTag(a, b)) == [a, b]
  {
    var run := a + ", " + b;
    assert ListTag(a, b) == ImageOpen + run + ")";
    assert NameOk(run) && '(' !in run;
    SingleTagRuns(run);
    SplitNamesPair(a, b);
    assert SplitAll([run]) == [a, b] + SplitAll([]) by {
      assert [run][1..] == [];
    }
  }

  /** The bullet line `* (Image: a, b)`: the loop as written collects the one name
      `a, b`, the corrected loop collects `a` and `b`. */
  lemma ListBulletNames(acc: Acc, a: string, b: string, line: string, block: Block)
    requires PlainName(a) && PlainName(b) && line == "* " + ListTag(a, b)
    ensures ParseLine(acc, line, block, AsWritten).names == acc.names + [a + ", " + b]
    ensures ParseLine(acc, line, block, ItemByItem).names == acc.names + [a, b]
  {
    ListTagRun(a, b);
    ListTagNames(a, b);
    ListBulletLine(a, b);
    BulletLineNames(acc, line, ListTag(a, b), block, [a + ", " + b], [a, b]);
  }

  /** As written, the tag `(Image: a, b)` captures the one run `a, b`. */
  lemma ListTagRun(a: string, b: string)
    requires PlainName(a) && PlainName(b)
    ensures TagNamesAsWritten(ListTag(a, b)) == [a + ", " + b]
  {
    var run := a + ", " + b;
    assert ListTag(a, b) == ImageOpen + run + ")";
    assert NameOk(run) && '(' !in run;
    SingleTagRuns(run);
  }

  /** A bullet line adds the names its content tags, under either reading. */
  lemma BulletLineNames(acc: Acc, line: string, tag: string, block: Block, runs: seq<string>, names: seq<string>)
    requires IsBullet(line) && Content(line) == tag
    requires TagNamesAsWritten(tag) == runs && TagNames(tag) == names
    ensures ParseLine(acc, line, block, AsWritten).names == acc.names + runs
    ensures ParseLine(acc, line, block, ItemByItem).names == acc.names + names
  {
    BulletNames(acc, line, block, AsWritten);
    BulletNames(acc, line, block, ItemByItem);
  }

  /** A bullet line adds the names its content tags. */
  lemma BulletNames(acc: Acc, line: string, block: Block, rd: Reading)
    requires IsBullet(line)
    ensures ParseLine(acc, line, block, rd).names == acc.names + Tagged(rd, Content(line))
  {
  }

  /** `* (Image: a, b)` is a bullet line whose content is the tag. */
  lemma ListBulletLine(a: string, b: string)
    requires PlainName(a) && PlainName(b)
    ensures var line := "* " + ListTag(a, b);
            !IsHeader(line) && IsBullet(line) && Content(line) == ListTag(a, b)
  {
    var tag := ListTag(a, b);
    var line := "* " + tag;
    assert tag[0] == '(' && tag[|tag| - 1] == ')';
    assert Stripped(tag);
    assert line[0] == '*' && line[|line| - 1] == ')';
    assert Stripped(line);
    assert line[1..] == [' '] + tag;
    StripDropsLeadingSpace(' ', tag);
    assert !(HeaderMark <= line) by { assert line[0] != HeaderMark[0]; }
  }

  /** A block with the two images `a.png` and `b.png`. */
  function TwoImages(): Block {
    Block("H", [Visual("a.png", "", ""), Visual("b.png", "", "")])
  }

  /** The bullet `(Image: a.png, b.png)` in that block: as written its section shows
      neither image. */
  lemma ListedTagLosesImages(a: string, b: string, block: Block)
    requires a == "a.png" && b == "b.png" && block == TwoImages()
    ensures MkSection(block, "Section 1", ["x"], TagNamesAsWritten(ListTag(a, b))).images == []
  {
    var run := a + ", " + b;
    assert |run| == 12;
    assert forall k :: 0 <= k < |block.images| ==> |block.images[k].src| == 5;
    NoShorterSrc(block.images, run);
    ListTagAsWritten(a, b, block, "Section 1", ["x"]);
  }

  lemma NoShorterSrc(images: seq<Visual>, src: string)
    requires forall k :: 0 <= k < |images| ==> |images[k].src| < |src|
    ensures !HasSrc(images, src)
  {
  }

  /** Read item by item, the same bullet keeps both images. */
  lemma ListedTagKeepsImages(a: string, b: string, block: Block)
    requires a == "a.png" && b == "b.png" && block == TwoImages()
    ensures forall n :: n in Srcs(MkSection(block, "Section 1", ["x"], TagNames(ListTag(a, b))).images)
                      <==> n == a || n == b
  {
    ListTagCorrected(a, b, block, "Section 1", ["x"]);
    assert HasSrc(block.images, a) by { assert block.images[0].src == a; }
    assert HasSrc(block.images, b) by { assert block.images[1].src == b; }
  }
}

=== FILE: strings.dfy ===
/**
 The Python string built-ins the chunker and the summary parser lean on, stated on
 `string` (a sequence of Unicode scalar values, as a Python `str` is a sequence of code
 points): `str.isspace()`, `str.strip()`, `str.lower()` and the `in` substring test.
 Joining and splitting live in `Lines`.
 */
module Strings {

  /** The characters for which Python's `str.isspace()` holds; `str.strip()` with no
      argument trims exactly these, and the regular-expression class `\s` matches them. */
  predicate IsSpace(c: char) {
    || ('\t' <= c <= '\r')
    || ('\U{1C}' <= c <= ' ')
    || c == '\U{85}' || c == '\U{A0}' || c == '\U{1680}'
    || ('\U{2000}' <= c <= '\U{200A}')
    || c == '\U{2028}' || c == '\U{2029}' || c == '\U{202F}' || c == '\U{205F}'
    || c == '\U{3000}'
  }

  predicate AllSpace(s: string) {
    forall k :: 0 <= k < |s| ==> IsSpace(s[k])
  }

  predicate HasNonSpace(s: string) {
    exists k :: 0 <= k < |s| && !IsSpace(s[k])
  }

  /** A string `strip()` leaves unchanged: empty, or non-space at both ends. */
  predicate Stripped(s: string) {
    s == [] || (!IsSpace(s[0]) && !IsSpace(s[|s| - 1]))
  }

  /** `str.lstrip()`: the longest suffix that does not start with a space. */
  function TrimStart(s: string): (r: string)
    ensures |r| <= |s| && (|r| > 0 ==> r[|r| - 1] == s[|s| - 1])
    ensures forall k :: 0 <= k < |s| - |r| ==> IsSpace(s[k])
    ensures r == [] || !IsSpace(r[0])
    decreases |s|
  {
    if |s| > 0 && IsSpace(s[0]) then TrimStart(s[1..]) else s
  }

  /** `str.rstrip()`: the longest prefix that does not end with a space. */
  function TrimEnd(s: string): (r: string)
    ensures |r| <= |s| && (|r| > 0 ==> r[0] == s[0])
    ensures forall k :: |r| <= k < |s| ==> IsSpace(s[k])
    ensures r == [] || !IsSpace(r[|r| - 1])
    decreases |s|
  {
    if |s| > 0 && IsSpace(s[|s| - 1]) then TrimEnd(s[..|s| - 1]) else s
  }

  /** What `lstrip()` keeps is a suffix of its input. */
  lemma {:induction false} TrimStartSuffix(s: string)
    ensures TrimStart(s) == s[|s| - |TrimStart(s)|..]
    decreases |s|
  {
    if |s| > 0 && IsSpace(s[0]) {
      TrimStartSuffix(s[1..]);
    }
  }

  /** What `rstrip()` keeps is a prefix of its input. */
  lemma {:induction false} TrimEndPrefix(s: string)
    ensures TrimEnd(s) == s[..|TrimEnd(s)|]
    decreases |s|
  {
    if |s| > 0 && IsSpace(s[|s| - 1]) {
      TrimEndPrefix(s[..|s| - 1]);
    }
  }

  /** A piece cut from the front of a suffix of `s` is a slice of `s`; blank around the
      piece inside the suffix and blank before the suffix means blank around it in `s`. */
  lemma {:induction false} SliceBetween(s: string, t: string, r: string, p: nat)
    requires p <= |s| && t == s[p..] && |r| <= |t| && r == t[..|r|]
    requires forall k :: 0 <= k < p ==> IsSpace(s[k])
    requires forall k :: |r| <= k < |t| ==> IsSpace(t[k])
    ensures p + |r| <= |s| && s[p..p + |r|] == r
    ensures AllSpace(s[..p]) && AllSpace(s[p + |r|..])
  {
    var q := p + |r|;
    var tail := s[q..];
    assert forall k :: 0 <= k < |tail| ==> tail[k] == t[|r| + k];
  }

  /** Trimming both ends leaves the slice of `s` between a blank prefix and a blank suffix. */
  lemma {:induction false} TrimBothSlice(s: string)
    ensures var t := TrimStart(s);
            var r := TrimEnd(t);
            var p := |s| - |t|;
            && p + |r| <= |s| && s[p..p + |r|] == r
            && AllSpace(s[..p]) && AllSpace(s[p + |r|..])
  {
    var t := TrimStart(s);
    TrimStartSuffix(s);
    TrimEndPrefix(t);
    SliceBetween(s, t, TrimEnd(t), |s| - |t|);
  }

  /** `str.strip()`: the slice of `s` left once the spaces at both ends are gone (see
      `StripSlice`). */
  function Strip(s: string): (r: string)
    ensures Stripped(r)
    ensures |r| <= |s|
    ensures Stripped(s) ==> r == s
  {
    TrimEnd(TrimStart(s))
  }

  /** What `strip()` keeps is the slice of `s` between a blank prefix and a blank suffix.
      Kept apart from `Strip`'s own contract so that every caller does not carry it. */
  lemma StripSlice(s: string)
    ensures exists p, q :: 0 <= p <= q <= |s| && s[p..q] == Strip(s) && AllSpace(s[..p]) && AllSpace(s[q..])
  {
    TrimBothSlice(s);
  }

  /** `strip()` yields the empty string exactly for blank input. */
  lemma StripBlank(s: string)
    ensures Strip(s) == [] <==> !HasNonSpace(s)
  {
    var t := TrimStart(s);
    var r := TrimEnd(t);
    if r == [] {
      assert t == [];
    } else {
      TrimStartSuffix(s);
      assert s[|s| - |t|] == t[0] == r[0];
    }
  }

  lemma StripIdempotent(s: string)
    ensures Strip(Strip(s)) == Strip(s)
  {
  }

  /** A leading space never survives `strip()`. */
  lemma StripDropsLeadingSpace(c: char, s: string)
    requires IsSpace(c)
    ensures Strip([c] + s) == Strip(s)
  {
    assert ([c] + s)[1..] == s;
  }

  lemma TrimStartSnocSpace(s: string, c: char)
    requires IsSpace(c)
    ensures TrimStart(s + [c]) == if HasNonSpace(s) then TrimStart(s) + [c] else []
    decreases |s|
  {
    if |s| == 0 {
    } else if IsSpace(s[0]) {
      assert (s + [c])[1..] == s[1..] + [c];
      TrimStartSnocSpace(s[1..], c);
      if HasNonSpace(s) {
        var k :| 0 <= k < |s| && !IsSpace(s[k]);
        assert s[1..][k - 1] == s[k];
      } else {
        assert forall k :: 0 <= k < |s| - 1 ==> s[1..][k] == s[k + 1];
      }
    } else {
      assert !IsSpace(s[0]);
    }
  }

  /** A trailing space never survives `strip()`. */
  lemma StripDropsTrailingSpace(s: string, c: char)
    requires IsSpace(c)
    ensures Strip(s + [c]) == Strip(s)
  {
    TrimStartSnocSpace(s, c);
    if HasNonSpace(s) {
      var t := TrimStart(s);
      assert (t + [c])[..|t + [c]| - 1] == t;
    } else {
      TrimStartSuffix(s);
    }
  }

  lemma {:induction false} TrimEndKeepsHead(p: string, u: string)
    requires p != "" && !IsSpace(p[|p| - 1])
    ensures p <= TrimEnd(p + u)
    decreases |u|
  {
    if |u| > 0 && IsSpace(u[|u| - 1]) {
      assert (p + u)[..|p + u| - 1] == p + u[..|u| - 1];
      TrimEndKeepsHead(p, u[..|u| - 1]);
    }
  }

  /** A stripped head survives `strip()` of a longer text. */
  lemma StripKeepsHead(p: string, u: string)
    requires p != "" && Stripped(p)
    ensures p <= Strip(p + u)
  {
    assert (p + u)[0] == p[0];
    TrimEndKeepsHead(p, u);
  }

  // ---------------------------------------------------------------------------
  // Case mapping

  /** Python's lower-case mapping on the blocks it covers here: ASCII, Latin-1 and
      Latin Extended Additional (where every Vietnamese capital with a tone mark
      lives); every other character is left as it is. */
  function LowerChar(c: char): (d: char)
    ensures 'A' <= c <= 'Z' ==> d as int == c as int + 32
    ensures !('A' <= c <= 'Z') && c < '\U{80}' ==> d == c
  {
    if 'A' <= c <= 'Z' then (c as int + 32) as char
    else if '\U{C0}' <= c <= '\U{DE}' && c != '\U{D7}' then (c as int + 32) as char
    else if ('\U{1E00}' <= c <= '\U{1E94}' || '\U{1EA0}' <= c <= '\U{1EFE}') && c as int % 2 == 0
    then (c as int + 1) as char
    else if c == '\U{1E9E}' then '\U{DF}'
    else c
  }

  /** `str.lower()`, character by character. */
  function Lower(s: string): (r: string)
    ensures |r| == |s|
    ensures forall k :: 0 <= k < |s| ==> r[k] == LowerChar(s[k])
    ensures forall k :: 0 <= k < |s| && 'A' <= s[k] <= 'Z' ==> r[k] as int == s[k] as int + 32
    ensures forall k :: 0 <= k < |s| && s[k] < '\U{80}' && !('A' <= s[k] <= 'Z') ==> r[k] == s[k]
    ensures forall k :: 0 <= k < |r| ==> !('A' <= r[k] <= 'Z')
  {
    seq(|s|, k requires 0 <= k < |s| => LowerChar(s[k]))
  }

  /** Lower-casing twice is lower-casing once. */
  lemma LowerIdempotent(s: string)
    ensures Lower(Lower(s)) == Lower(s)
  {
  }

  /** Only the two ASCII cases of a letter lower-case to that ASCII letter. */
  lemma LowerCharToAscii(c: char, a: char)
    requires 'a' <= a <= 'z'
    ensures LowerChar(c) == a <==> c == a || c as int == a as int - 32
  {
  }

  // ---------------------------------------------------------------------------
  // Substring test

  predicate OccursAt(s: string, needle: string, k: nat) {
    k + |needle| <= |s| && s[k..k + |needle|] == needle
  }

  /** Python's `needle in s` on strings. */
  function Contains(s: string, needle: string): (b: bool)
    ensures b <==> exists k: nat :: k <= |s| && OccursAt(s, needle, k)
    decreases |s|
  {
    if needle <= s then
      assert OccursAt(s, needle, 0);
      true
    else if |s| == 0 then false
    else
      var b := Contains(s[1..], needle);
      assert b ==> exists k: nat :: k <= |s| && OccursAt(s, needle, k) by {
        if b {
          var k: nat :| k <= |s[1..]| && OccursAt(s[1..], needle, k);
          assert s[k + 1..k + 1 + |needle|] == s[1..][k..k + |needle|];
          assert OccursAt(s, needle, k + 1);
        }
      }
      assert (exists k: nat :: k <= |s| && OccursAt(s, needle, k)) ==> b by {
        if exists k: nat :: k <= |s| && OccursAt(s, needle, k) {
          var k: nat :| k <= |s| && OccursAt(s, needle, k);
          assert k > 0;
          assert s[1..][k - 1..k - 1 + |needle|] == s[k..k + |needle|];
          assert OccursAt(s[1..], needle, k - 1);
        }
      }
      b
  }
}
